=== FILE: README.md ===
# Markdown renderer of the code-review chat front end

The chat window of the code-review front end draws the bot's replies with a
small hand-written markdown renderer (frontend/src/App.jsx). This project
models that renderer and proves what it does:

- **Line normalisation** (`Lines`): carriage returns are deleted and the text
  is split on line feeds.
- **Line tests** (`Patterns`, `Chars`): the code fence test `startsWith('```')`,
  the three anchored regular expressions for headings, unordered items and
  ordered items, and the whitespace-only test `trim() === ''`. Each expression
  is stated twice: as the language it accepts, and as a greedy matcher. The two
  are proved to agree, including on the text the capture group takes.
- **Block scanner** (`Scanner`, `ScannerLoop`): `renderMarkdown` is modelled
  twice. `Scanner` states it as a fold of one `Step` per line followed by
  `Finish`. `ScannerLoop` states it as the source's own loop with mutable
  variables and a local `flushList`, and proves that the loop returns the
  fold's blocks. `ScannerExamples` works through concrete inputs.
- **Inline spans** (`Inline`, `InlineFacts`): `renderInline` cuts a line at
  code spans `` `x` ``; the text outside them goes to `renderBoldSegments`,
  which cuts it at bold spans `**x**`.
- **Block to node mapping** (`View`, `Decimal`): a heading's tag is
  `h<min(3, level)>`, while its class keeps the real level.
- **Upload size guard** (`Upload`): files over 2,000,000 bytes are refused with
  a message citing "2.0 MB".

A JavaScript global regular expression's `exec` resumes at `lastIndex`.
Neither inline expression has an anchor or a look-behind, so resuming there is
the same as searching the rest of the text afresh. Both inline functions are
therefore modelled as recursion on the remaining suffix.

Each rendered node records the kind of element drawn and its content: spans
for headings, paragraphs and list items, the verbatim text for code. Only
heading nodes record a tag and a class, because only there do they depend on
the block. React elements are not built.

Two behaviours of the code are worth noting:

- `"- a\n- b\n1. c\n"` gives ONE unordered list `["a", "b", "c"]` and then a
  blank block. An open list keeps its kind, and `1. c` joins it
  (`ScannerExamples.RawMixedMarkersOneList`). Switching markers does not
  start a second list.
- A final line feed leaves an empty last line. Unless a code fence is still
  open, that line emits a blank block. So `"# Title\n\nSome *not bold* text\n"`
  gives four blocks, the last one blank
  (`ScannerExamples.RawHeadingBlankParagraph`,
  `Scanner.TrailingNewlineGivesBlank`). Inside an unclosed fence the empty
  line is buffered instead: `"```\nx\n"` gives the single code block `x\n`
  (`ScannerExamples.RawOpenFenceKeepsFinalNewline`).

One detail of the source text is kept as it is:

- In the source file, the dash in the size-guard error is stored as the three
  characters U+00E2 U+20AC U+201D. That is an em dash whose UTF-8 bytes were
  decoded as Windows-1252. The model keeps those three characters.

## Model

| member | source | states |
|---|---|---|
| Chars.WsClass | frontend/src/App.jsx:100-113 | `Chars.IsWs`, the whitespace set of `\s` and `trim()`, holds space and tab, and none of the characters the expressions use as markers (digits, `#`, `-`, `*`, `.`, backtick); the heading, item and blank tests of `Patterns` use the predicate, and the worked classifications of `ScannerExamples` call the lemma |
| Chars.TerminatorIsWs | frontend/src/App.jsx:100-102 | `Chars.IsLineTerminator`, the characters `.` refuses (LF, CR, U+2028, U+2029) are all whitespace; the expressions of `Patterns` use it for `(.*)$` |
| ScannerExamples.ClassifyLineSeparator | frontend/src/App.jsx:113 | a line of only U+2028, which survives the `\r` deletion and the split on `\n`, passes `line.trim() === ''` and is blank, because `Chars.TerminatorIsWs` puts the line terminators inside the whitespace set |
| Lines.SplitLines | frontend/src/App.jsx:65 | `split('\n')` returns at least one piece; no piece contains a line feed; joining the pieces with line feeds gives back the text |
| Lines.SplitJoin | frontend/src/App.jsx:65 | splitting undoes joining: lines without line feeds are recovered exactly from their join |
| Lines.NormalizeJoin | frontend/src/App.jsx:65 | lines free of `\r` and `\n` are recovered exactly from `join('\n')` by the renderer's normalisation |
| Lines.NormalizeTrailingNewline | frontend/src/App.jsx:65 | a text ending in a line feed normalises to the lines of the text without it, followed by one empty line |
| Lines.StripCRAppend | frontend/src/App.jsx:65 | deleting carriage returns works piecewise over concatenation |
| Lines.StripCR | frontend/src/App.jsx:65 | `replace(/\r/g, '')` leaves no carriage return, never lengthens the text, and leaves a text without one unchanged; `Lines.StripCRCount` and `Lines.StripCRAppend` pin it down as deletion |
| Lines.StripCRCount | frontend/src/App.jsx:65 | the text shrinks by exactly its number of carriage returns, so each is deleted and none is replaced by another character |
| Lines.NormalizeCRLF | frontend/src/App.jsx:65 | a CRLF line end gives the same lines as a plain LF: the `\r` before a line feed vanishes |
| Lines.JoinShape | frontend/src/App.jsx:85 | `codeBuf.join('\n')` (also at line 126) begins with the first line and is at least as long as the line feeds it puts between the lines; `Lines.SplitJoin` is its inverse |
| Lines.Normalize | frontend/src/App.jsx:65 | `raw.replace(/\r/g, '').split('\n')` gives at least one line, and no line holds a line feed or a carriage return; `Lines.NormalizeJoin` is its inverse on such lines |
| Patterns.MatchHeadingIsRegex | frontend/src/App.jsx:100 | the heading matcher succeeds exactly on the lines `/^(#{1,6})\s+(.*)$/` accepts; its level is the only possible hash count; its text starts after the longest whitespace run, as greedy `\s+` dictates |
| Patterns.MatchBulletIsRegex | frontend/src/App.jsx:101 | the unordered-item matcher succeeds exactly on the lines `/^\s*[-*]\s+(.*)$/` accepts and captures what greedy matching captures |
| Patterns.MatchOrderedIsRegex | frontend/src/App.jsx:102 | the ordered-item matcher succeeds exactly on the lines `/^\s*\d+\.\s+(.*)$/` accepts and captures what greedy matching captures |
| Patterns.MatchHeading | frontend/src/App.jsx:100 | a heading match has a level of 1-6, whitespace right after the hashes, and a text that is the tail of the line after them; `Patterns.MatchHeadingIsRegex` ties it to the expression |
| Patterns.MatchBullet | frontend/src/App.jsx:101 | an unordered-item capture is a tail of the line with at least the marker and one whitespace character before it; `Patterns.MatchBulletIsRegex` ties it to the expression |
| Patterns.MatchOrdered | frontend/src/App.jsx:102 | an ordered-item capture is a tail of the line with at least a digit, the dot and one whitespace character before it; `Patterns.MatchOrderedIsRegex` ties it to the expression |
| Patterns.IsFence | frontend/src/App.jsx:83 | a line is a fence exactly when three backticks are a prefix of it, as `startsWith('```')` tests; `Patterns.FenceIsTextLine` and `Scanner.FenceParity` use it |
| Patterns.Classify | frontend/src/App.jsx:100-120 | a heading line's level is 1-6; which expression decides each kind is `Patterns.ClassifyFollowsRegexOrder` |
| Patterns.ClassifyFollowsRegexOrder | frontend/src/App.jsx:100-120 | a line's kind is heading, unordered item, ordered item, whitespace-only or paragraph: the first of the expressions, in the source's order, that accepts the line; each kind carries its expression's capture |
| Patterns.FenceIsTextLine | frontend/src/App.jsx:83-102 | a fence line is never a heading, item or blank line, so it reaches the fence branch only |
| Scanner.Step | frontend/src/App.jsx:83-121 | one loop iteration only appends blocks; it toggles code mode exactly on fence lines; a fence line, and any line inside a code block, leaves the open list untouched |
| Scanner.BlockOf | frontend/src/App.jsx:104-120 | a heading, whitespace-only or other non-item line stands for a valid block that is neither a list nor code; a paragraph holds the line verbatim |
| Scanner.StepOutsideCode | frontend/src/App.jsx:104-120 | outside code, a line that is neither a fence nor an item flushes the open list, if any, then appends its own block (the heading of its hash count and capture, a blank block, or the verbatim paragraph); nothing else changes |
| Scanner.RunSnoc | frontend/src/App.jsx:81-122 | the `while` loop over one more line is one more `Step` on the state the earlier lines left; with `Scanner.RunAppend` this fixes `Scanner.Run` as the left fold of `Step` |
| Scanner.RunKeepsWf | frontend/src/App.jsx:81-122 | started from a state meeting the scan invariant (as the initial state does), the loop over any lines only appends blocks and keeps the invariant (lists non-empty, heading levels 1-6, code buffer empty outside code) |
| Scanner.Flush | frontend/src/App.jsx:73-79 | `flushList` closes the open list and, if there was one, appends it as exactly one list block of the same kind and items after the blocks so far; code mode and the code buffer are untouched |
| Scanner.Finish | frontend/src/App.jsx:123-127 | the end of the text keeps every emitted block, then adds the open list, if any, and then, if a fence is still open, one code block of the buffered lines joined by line feeds |
| Scanner.RenderMarkdown | frontend/src/App.jsx:64-127 | every text, the empty one included, renders to at least one block; the loop form `ScannerLoop.RenderMarkdownLoop` computes the same blocks |
| Scanner.StepKeepsWf | frontend/src/App.jsx:104-120 | one iteration keeps the scan invariant: emitted lists are non-empty, heading levels are 1-6, the code buffer is empty outside code |
| Scanner.RenderMarkdownBlocks | frontend/src/App.jsx:64-127 | every text yields at least one block; every list block has an item; every heading level is 1-6 |
| Scanner.RunAppend | frontend/src/App.jsx:81-122 | scanning two runs of lines one after the other is scanning their concatenation |
| Scanner.FenceParity | frontend/src/App.jsx:83-93 | code mode is open after a run of lines exactly when it held an odd number of fence lines (relative to the starting mode) |
| Scanner.CodeLinesBuffered | frontend/src/App.jsx:94-98 | inside a code block every non-fence line is buffered verbatim, whatever it looks like, and nothing else changes |
| Scanner.FencedCodeBlock | frontend/src/App.jsx:83-98 | a fenced block emits exactly one code block: its body lines joined by line feeds; an open list stays open across it |
| Scanner.UnclosedFenceRecovered | frontend/src/App.jsx:123-127 | a code block still open at the end is emitted anyway, after the flushed list, with its body joined by line feeds |
| Scanner.ItemsJoinList | frontend/src/App.jsx:107-112 | a run of list items emits nothing: it extends the open list, or opens one of the first item's kind, and a list never changes kind |
| Scanner.ListFlushedOnlyByOtherBlocks | frontend/src/App.jsx:73-79 | outside code, an open list is flushed exactly by heading, blank and paragraph lines; when flushed it is emitted just before the new block |
| Scanner.EmptyTextIsOneBlank | frontend/src/App.jsx:65-116 | the empty text renders as exactly one blank block |
| Scanner.TrailingNewlineGivesBlank | frontend/src/App.jsx:113-127 | a text that ends in a line feed, with its fences balanced, ends in a blank block |
| ScannerLoop.FlushList | frontend/src/App.jsx:73-79 | `flushList` appends the buffered list, if there is one, and clears the buffer |
| ScannerLoop.RenderMarkdownLoop | frontend/src/App.jsx:64-127 | the source's loop, with its mutable variables, `continue` and `flushList`, returns exactly the blocks of the fold `Scanner.RenderMarkdown` |
| ScannerLoop.ScanAll | frontend/src/App.jsx:81-122 | after the loop over all lines, its variables hold the state of the fold over all lines |
| ScannerLoop.ScanLine | frontend/src/App.jsx:83-98 | one pass of the loop body, with its early `continue`s, is one step of the fold |
| ScannerLoop.ScanOutsideCode | frontend/src/App.jsx:100-121 | computing all three matches and taking the first that succeeds is one step of the fold |
| ScannerExamples.ExampleMixedMarkersOneList | frontend/src/App.jsx:107-116 | the lines `- a`, `- b`, `1. c` and an empty line give one unordered list `[a, b, c]` and a blank block |
| ScannerExamples.ExampleHeadingBlankParagraph | frontend/src/App.jsx:104-120 | `# Title`, an empty line, `Some *not bold* text` and an empty line give a level-1 heading, a blank block, that paragraph and a blank block |
| ScannerExamples.ExampleUnclosedFence | frontend/src/App.jsx:123-127 | a fence followed by `line1` and `line2`, never closed, gives the single code block `line1\nline2` |
| ScannerExamples.ExampleListAroundCode | frontend/src/App.jsx:83-112 | `- a`, a fenced `x`, `- b` give the code block first and then one list `[a, b]`, because fences do not flush lists |
| ScannerExamples.RawMixedMarkersOneList | frontend/src/App.jsx:64-127 | the raw text `"- a\n- b\n1. c\n"` renders as one unordered list `[a, b, c]` followed by a blank block |
| ScannerExamples.RawHeadingBlankParagraph | frontend/src/App.jsx:64-127 | the raw text `"# Title\n\nSome *not bold* text\n"` renders as a level-1 heading, a blank block, that paragraph and a blank block |
| ScannerExamples.RawUnclosedFence | frontend/src/App.jsx:64-127 | the raw text of an unclosed fence over `line1` and `line2` renders as the single code block `line1\nline2` |
| ScannerExamples.RawListAroundCode | frontend/src/App.jsx:64-127 | the raw text of `- a`, a fenced `x` and `- b` renders as the code block followed by the list `[a, b]` |
| ScannerExamples.RawOpenFenceKeepsFinalNewline | frontend/src/App.jsx:94-127 | the raw text `"```\nx\n"` renders as the single code block `x\n`: inside an unclosed fence the empty last line is buffered, so no blank block follows |
| ScannerExamples.FromLines | frontend/src/App.jsx:65 | a text that is the line-feed join of lines free of `\r` and `\n` renders exactly as the scan of those lines |
| Inline.UnparseAppend | frontend/src/App.jsx:25-62 | the text spans stand for is additive over concatenation |
| Inline.FindCodeFrom | frontend/src/App.jsx:29-31 | a code match found lies at or after the search position, inside the text, with at least one character between its backticks |
| Inline.FindBoldFrom | frontend/src/App.jsx:49-51 | a bold match found lies at or after the search position, inside the text, with at least one character between its star pairs |
| Inline.BoldSegments | frontend/src/App.jsx:46-62 | `renderBoldSegments` yields no piece exactly for the empty text, and never more pieces than the text has characters; `Inline.BoldSegmentsRoundTrip` is its inverse |
| Inline.Outside | frontend/src/App.jsx:32-42 | the non-empty text around code spans goes to the bold pass, and empty text yields no piece |
| Inline.RenderInline | frontend/src/App.jsx:25-44 | `renderInline` yields no span exactly for the empty text, and never more spans than the text has characters; `Inline.RenderInlineRoundTrip` is its inverse |
| Inline.FindCodeFromIsLeftmost | frontend/src/App.jsx:29-31 | the code-span search returns a match of `` /`([^`]+)`/ ``, and no match starts earlier; when it finds nothing, no match exists |
| Inline.CodeMatchUnique | frontend/src/App.jsx:29 | a code match is fixed by where it starts: it closes at the next backtick |
| Inline.FindBoldFromIsLeftmost | frontend/src/App.jsx:49-51 | the bold search returns a match of `/\*\*([^*]+)\*\*/`, and no match starts earlier; when it finds nothing, no match exists |
| Inline.BoldMatchUnique | frontend/src/App.jsx:49 | a bold match is fixed by where it starts: it closes at the next star |
| Inline.BoldSegmentsRoundTrip | frontend/src/App.jsx:46-62 | putting `**` back around the bold spans of `renderBoldSegments` gives the text again; plain pieces are non-empty; bold text is non-empty and star-free |
| Inline.RenderInlineRoundTrip | frontend/src/App.jsx:25-44 | putting backticks and stars back gives the line again; plain pieces are non-empty; code text is non-empty and backtick-free; bold text is non-empty and star-free |
| InlineFacts.BoldSegmentsPlainFree | frontend/src/App.jsx:46-62 | no plain piece of `renderBoldSegments` contains a bold match, and none contains a code match if the text has none |
| InlineFacts.RenderInlinePlainFree | frontend/src/App.jsx:25-62 | no plain piece of `renderInline` contains a code match or a bold match, so no span is left unrecognised |
| InlineFacts.CodeSpanOpaque | frontend/src/App.jsx:29-42 | a code span is taken verbatim, stars included: text before it goes to the bold pass, and the text after it is rendered on its own |
| InlineFacts.BoldSpanFirst | frontend/src/App.jsx:49-60 | a star-free prefix and a bold span become a plain piece and a bold piece, and the rest is cut on its own |
| InlineFacts.StarFreeIsPlain | frontend/src/App.jsx:46-62 | star-free non-empty text is one plain piece |
| InlineFacts.BacktickFreeIsOutside | frontend/src/App.jsx:41-42 | text without backticks goes to the bold pass whole |
| InlineFacts.ExampleCodeThenBold | frontend/src/App.jsx:25-62 | ``Use `foo()` and **bar**`` renders as plain `Use `, code `foo()`, plain ` and `, bold `bar` |
| Decimal.ValueShow | frontend/src/App.jsx:157-158 | the decimal notation a template literal prints for a number reads back as that number |
| View.HeadingClamp | frontend/src/App.jsx:156-158 | levels 1 and 2 keep their tag, levels 3 to 6 all draw as `h3`, and the level can be read back from the class `md-h md-h<level>` |
| View.HeadingClassDistinguishesLevels | frontend/src/App.jsx:158 | two headings share a class only if they share a level, even when their tags coincide |
| View.HeadingTag | frontend/src/App.jsx:157 | the heading tag is `h` and one digit, `1` to `3` for every heading level; `View.HeadingClamp` gives its exact value |
| View.HeadingClass | frontend/src/App.jsx:158 | the heading class starts with `md-h md-h` and goes on with the level; `View.HeadingClamp` reads the level back |
| View.TagLevel | frontend/src/App.jsx:157 | `Math.min(3, b.level)` is at most 3 and at most the level, and equals one of them |
| View.RenderItems | frontend/src/App.jsx:165-173 | `b.items.map(it => renderInline(it))` gives one span list per item; `View.RenderItemsUnparse` shows each gives back its item |
| View.RenderBlocks | frontend/src/App.jsx:155 | `blocks.map` gives one node per block; `View.RenderBlocksPointwise` shows node i is drawn from block i |
| View.RenderBlock | frontend/src/App.jsx:155-175 | each kind of block becomes its own kind of node; a heading takes the tag and class of its level, a code block keeps its text verbatim, a list keeps its kind and its number of items |
| View.RenderedHeadingsClamped | frontend/src/App.jsx:64-158 | every heading drawn from any text has tag `h1`, `h2` or `h3` and the class of its own level, which is 1-6 |
| View.RenderBlockKeepsText | frontend/src/App.jsx:155-175 | rendering loses no text: putting the inline markup back into a node gives its block's text (item by item for lists), and the node kind matches the block kind |
| View.RenderBlocksPointwise | frontend/src/App.jsx:155 | the i-th node is drawn from the i-th block |
| Upload.HandleFileChange | frontend/src/App.jsx:201-212 | no file does nothing; a file is accepted exactly when its size is at most 2,000,000 bytes, and it is passed on unchanged |
| Upload.MaxLabel | frontend/src/App.jsx:207 | the limit prints as `2.0` |
| Upload.TooLargeError | frontend/src/App.jsx:208 | the error line ends with the megabyte label followed by ` MB`, after the fixed 23-character prefix |
| Upload.TooLargeNotice | frontend/src/App.jsx:209 | the bot message names the file right after `File ` and ends with the megabyte label followed by ` MB.` |
| Upload.RefusalCitesLimit | frontend/src/App.jsx:206-209 | a refused file gets an error citing `2.0 MB` and a bot message naming the file and citing `2.0 MB` |
| Upload.GuardBoundary | frontend/src/App.jsx:205-206 | exactly 2,000,000 bytes is accepted; 2,000,001 bytes is refused |

## Left out

- The backend and every other file of the repository: the model covers only the renderer and the upload guard.
- React itself: elements, `key` props (`Math.random()`, indices), inline styles and the scroll effect. A node records its kind and content; only heading nodes record a tag and a class.
- The fixed element names and classes: the `p`, `ul`, `ol`, `li`, `strong` and `code` tags, the class `md-list` on lists (frontend/src/App.jsx:166, 171) and the class `md-inline-code` on code spans (frontend/src/App.jsx:35). They do not depend on the input; the node kind (`ListNode` with its `kind`, `ParaNode`, `CodeSpan`, `Bold`) determines them.
- `CopyableCode`: the clipboard write, the "Copied!" state and its 1200 ms timer are I/O and timing.
- `sendForReview` (the `fetch` call), the `FileReader` callback after the guard, `handleSend`, the theme switch and `pushMessage`'s ids: these are I/O, clocks and randomness.
- Clearing the file input (`e.target.value = ''`) after a refusal: this is a DOM side effect.
- Upload.MegabyteLabel: it rounds the tenths half up on exact integers. `toFixed(1)` on a binary floating-point value can differ for other sizes. The source only ever formats the constant 2,000,000, which both print as `2.0`.
- The kilobyte label shown for an attached file (frontend/src/App.jsx:308): it is floating-point formatting outside the renderer.

=== FILE: chars.dfy ===
/** Small shared vocabulary: an Option type and the character classes that the
    renderer's regular expressions and `String.prototype.trim` rely on. */
module Options {

  /** A value that may be absent, used for regular-expression matches that may fail. */
  datatype Option<+T> = None | Some(value: T)
}

module Chars {

  /** JavaScript's whitespace set: the WhiteSpace and LineTerminator code points.
      Both `\s` in a regular expression and `String.prototype.trim` use exactly
      this set, so one predicate serves both. */
  predicate IsWs(c: char) {
    var n := c as int;
    n == 0x09 || n == 0x0A || n == 0x0B || n == 0x0C || n == 0x0D || n == 0x20
    || n == 0xA0 || n == 0x1680 || (0x2000 <= n <= 0x200A)
    || n == 0x2028 || n == 0x2029 || n == 0x202F || n == 0x205F
    || n == 0x3000 || n == 0xFEFF
  }

  /** The characters that `.` in a JavaScript regular expression refuses to match. */
  predicate IsLineTerminator(c: char) {
    c == '\n' || c == '\r' || c as int == 0x2028 || c as int == 0x2029
  }

  /** Space and tab are whitespace; none of the characters the renderer's
      expressions use as markers is. */
  lemma WsClass(c: char)
    ensures c == ' ' || c == '\t' ==> IsWs(c)
    ensures IsDigit(c) || c == '#' || c == '-' || c == '*' || c == '.' || c == '`' ==> !IsWs(c)
  {
  }

  /** Every character `.` refuses is whitespace. */
  lemma TerminatorIsWs(c: char)
    ensures IsLineTerminator(c) ==> IsWs(c)
  {
  }

  /** `\d`: an ASCII decimal digit. */
  predicate IsDigit(c: char) {
    '0' <= c <= '9'
  }

  predicate IsHash(c: char) {
    c == '#'
  }

  /** Every character of `s` satisfies `p`. */
  predicate All(s: string, p: char -> bool) {
    forall i | 0 <= i < |s| :: p(s[i])
  }

  /** No character of `s` is a line terminator, i.e. `.*` can consume all of `s`. */
  predicate NoTerminator(s: string) {
    forall i | 0 <= i < |s| :: !IsLineTerminator(s[i])
  }

  /** The end of the longest run of `p`-characters of `s` starting at `i`:
      what a greedy `p*` starting at `i` consumes. */
  function RunEnd(s: string, i: nat, p: char -> bool): (j: nat)
    requires i <= |s|
    ensures i <= j <= |s|
    decreases |s| - i
  {
    if i == |s| || !p(s[i]) then i else RunEnd(s, i + 1, p)
  }

  /** The greedy run consists of `p`-characters and stops at the end of `s` or
      at a character outside `p`. */
  lemma {:induction false} RunEndIsRun(s: string, i: nat, p: char -> bool)
    requires i <= |s|
    ensures All(s[i..RunEnd(s, i, p)], p)
    ensures RunEnd(s, i, p) == |s| || !p(s[RunEnd(s, i, p)])
    decreases |s| - i
  {
    if i < |s| && p(s[i]) {
      RunEndIsRun(s, i + 1, p);
      var j := RunEnd(s, i, p);
      assert s[i..j] == [s[i]] + s[i + 1..j];
    }
  }

  /** A run of `p`-characters cannot end before a `p`-character: any shorter
      candidate run is inside the greedy one. */
  lemma RunEndIsMaximal(s: string, i: nat, k: nat, p: char -> bool)
    requires i <= k <= |s|
    requires All(s[i..k], p)
    ensures k <= RunEnd(s, i, p)
    decreases |s| - i
  {
    if i < k {
      assert s[i..k][0] == s[i];
      assert s[i + 1..k] == s[i..k][1..];
      RunEndIsMaximal(s, i + 1, k, p);
    }
  }

  /** A run that ends at a character outside `p` is exactly the greedy run. */
  lemma RunEndExact(s: string, i: nat, k: nat, p: char -> bool)
    requires i <= k <= |s|
    requires All(s[i..k], p)
    requires k == |s| || !p(s[k])
    ensures RunEnd(s, i, p) == k
  {
    RunEndIsMaximal(s, i, k, p);
    RunEndIsRun(s, i, p);
  }

  /** `.*$` matches `s[i..]`: no line terminator from `i` on. */
  function TerminatorFreeFrom(s: string, i: nat): bool
    requires i <= |s|
    decreases |s| - i
  {
    i == |s| || (!IsLineTerminator(s[i]) && TerminatorFreeFrom(s, i + 1))
  }

  lemma {:induction false} TerminatorFreeFromIsNoTerminator(s: string, i: nat)
    requires i <= |s|
    ensures TerminatorFreeFrom(s, i) <==> NoTerminator(s[i..])
    decreases |s| - i
  {
    if i < |s| {
      TerminatorFreeFromIsNoTerminator(s, i + 1);
      assert s[i..] == [s[i]] + s[i + 1..];
    }
  }

  /** The whole of `s` is whitespace exactly when the greedy whitespace run
      from the start reaches its end. */
  lemma AllWsIsRunToEnd(s: string)
    ensures All(s, IsWs) <==> RunEnd(s, 0, IsWs) == |s|
  {
    RunEndIsRun(s, 0, IsWs);
    if All(s, IsWs) {
      assert s[0..|s|] == s;
      RunEndIsMaximal(s, 0, |s|, IsWs);
    }
  }

  /** A suffix of a terminator-free string is terminator-free. */
  lemma NoTerminatorSuffix(s: string, i: nat, j: nat)
    requires i <= j <= |s|
    requires NoTerminator(s[i..])
    ensures NoTerminator(s[j..])
  {
    forall k | 0 <= k < |s[j..]|
      ensures !IsLineTerminator(s[j..][k])
    {
      assert s[j..][k] == s[i..][k + j - i];
    }
  }
}

=== FILE: examples.dfy ===
/** Worked inputs for the block scanner, each derived from the general lemmas
    of `Scanner` plus the classification of the individual lines. Each input
    is first given as its lines and then as the raw text; `FromLines`
    connects the two through `Lines.NormalizeJoin`. */
module ScannerExamples {
  import opened Options
  import opened Chars
  import opened Lines
  import opened Patterns
  import opened Scanner

  lemma ClassifyDashA()
    ensures Classify("- a") == BulletItem("a")
  {
    WsClass('-');
    assert RunEnd("- a", 0, IsWs) == 0;
    assert RunEnd("- a", 2, IsWs) == 2;
  }

  lemma ClassifyDashB()
    ensures Classify("- b") == BulletItem("b")
  {
    WsClass('-');
    assert RunEnd("- b", 0, IsWs) == 0;
    assert RunEnd("- b", 2, IsWs) == 2;
  }

  lemma ClassifyOneDotC()
    ensures Classify("1. c") == OrderedItem("c")
  {
    WsClass('1');
    assert RunEnd("1. c", 0, IsHash) == 0;
    assert RunEnd("1. c", 0, IsWs) == 0;
    assert RunEnd("1. c", 0, IsDigit) == 1;
    assert RunEnd("1. c", 3, IsWs) == 3;
  }

  lemma ClassifyEmpty()
    ensures Classify("") == BlankLine
  {
  }

  lemma ClassifyTitle()
    ensures Classify("# Title") == HeadingLine(1, "Title")
  {
    var line := "# Title";
    WsClass(line[1]);
    assert RunEnd(line, 0, IsHash) == 1;
    assert RunEnd(line, 1, IsWs) == 2;
    assert line[2..] == "Title";
    TerminatorFreeFromIsNoTerminator(line, 2);
    assert MatchHeading(line) == Some(HeadingMatch(1, "Title"));
  }

  /** A line holding only a line separator (U+2028), which normalisation
      keeps, is blank: `trim()` strips line terminators along with spaces. */
  lemma ClassifyLineSeparator()
    ensures Classify("\U{2028}") == BlankLine
  {
    var line := "\U{2028}";
    TerminatorIsWs(line[0]);
    assert RunEnd(line, 0, IsHash) == 0;
    assert RunEnd(line, 0, IsWs) == 1;
  }

  lemma ClassifyNotBold()
    ensures Classify("Some *not bold* text") == TextLine
  {
    var line := "Some *not bold* text";
    assert RunEnd(line, 0, IsHash) == 0;
    assert RunEnd(line, 0, IsWs) == 0;
    assert RunEnd(line, 0, IsDigit) == 0;
  }

  /** Switching from '-' items to '1.' items continues the same unordered
      list, and the final line feed adds a blank block. */
  lemma ExampleMixedMarkersOneList()
    ensures ScanLines(["- a", "- b", "1. c", ""]) == [List(Unordered, ["a", "b", "c"]), Blank]
  {
    var items := ["- a", "- b", "1. c"];
    assert ["- a", "- b", "1. c", ""] == items + [""];
    MixedItems(items);
    MixedThenBlank(items);
  }

  lemma MixedThenBlank(items: seq<string>)
    requires Run(Start, items) == Start.(list := Some(OpenList(Unordered, ["a", "b", "c"])))
    ensures ScanLines(items + [""]) == [List(Unordered, ["a", "b", "c"]), Blank]
  {
    RunSnoc(Start, items, "");
    ClassifyEmpty();
  }

  lemma MixedItems(items: seq<string>)
    requires items == ["- a", "- b", "1. c"]
    ensures Run(Start, items) == Start.(list := Some(OpenList(Unordered, ["a", "b", "c"])))
  {
    ClassifyDashA();
    ClassifyDashB();
    ClassifyOneDotC();
    ThreeItems(items[0], items[1], items[2], Unordered, "a", "b", "c");
    assert items == [items[0], items[1], items[2]];
  }

  /** Three list items in a row, the first fixing the kind. */
  lemma ThreeItems(x: string, y: string, z: string, kind: ListKind, tx: string, ty: string, tz: string)
    requires IsItem(x) && IsItem(y) && IsItem(z)
    requires ItemKind(x) == kind
    requires Classify(x).text == tx && Classify(y).text == ty && Classify(z).text == tz
    ensures Run(Start, [x, y, z]) == Start.(list := Some(OpenList(kind, [tx, ty, tz])))
  {
    var items := [x, y, z];
    assert AllItems([z]) && ItemTexts([z]) == [tz] by {
      assert [z][1..] == [];
      assert AllItems([]) && ItemTexts([]) == [];
    }
    assert AllItems([y, z]) && ItemTexts([y, z]) == [ty, tz] by {
      assert [y, z][1..] == [z];
    }
    assert items[1..] == [y, z];
    assert ItemTexts(items) == [tx, ty, tz];
    ItemsJoinList(Start, items);
    assert [] + [tx, ty, tz] == [tx, ty, tz];
  }

  /** A heading line, a blank line and a paragraph line with a single '*' (not
      bold) each give one block; the final line feed gives a trailing blank. */
  lemma ExampleHeadingBlankParagraph()
    ensures ScanLines(["# Title", "", "Some *not bold* text", ""])
      == [Heading(1, "Title"), Blank, Para("Some *not bold* text"), Blank]
  {
    EmitsTitle();
    EmitsEmpty();
    EmitsNotBold();
    FourSingleBlocks("# Title", "", "Some *not bold* text", "",
      Heading(1, "Title"), Blank, Para("Some *not bold* text"), Blank);
  }

  lemma EmitsTitle()
    ensures Emits("# Title", Heading(1, "Title"))
  {
    ClassifyTitle();
    assert "# Title"[..3][0] == '#';
  }

  lemma EmitsEmpty()
    ensures Emits("", Blank)
  {
    ClassifyEmpty();
  }

  lemma EmitsNotBold()
    ensures Emits("Some *not bold* text", Para("Some *not bold* text"))
  {
    ClassifyNotBold();
    assert "Some *not bold* text"[..3][0] == 'S';
  }

  /** The block a heading, blank or paragraph line emits when no list is open. */
  predicate Emits(line: string, b: Block) {
    && !IsFence(line)
    && match Classify(line)
       case HeadingLine(level, text) => b == Heading(level, text)
       case BlankLine => b == Blank
       case TextLine => b == Para(line)
       case _ => false
  }

  lemma StepEmits(st: ScanState, line: string, b: Block)
    requires !st.inCode && st.list.None? && Emits(line, b)
    ensures Step(st, line) == st.(blocks := st.blocks + [b])
  {
    assert !IsItem(line) && BlockOf(line) == b;
    StepOutsideCode(st, line);
    assert st.blocks + Pending(st.list) == st.blocks;
  }

  lemma FourSingleBlocks(w: string, x: string, y: string, z: string, bw: Block, bx: Block, b3: Block, bz: Block)
    requires Emits(w, bw) && Emits(x, bx) && Emits(y, b3) && Emits(z, bz)
    ensures ScanLines([w, x, y, z]) == [bw, bx, b3, bz]
  {
    assert Run(Start, []) == Start.(blocks := []);
    EmitOne([], w, bw, []);
    Snoc1(w);
    Snoc1(bw);
    EmitOne([w], x, bx, [bw]);
    Snoc2(w, x);
    Snoc2(bw, bx);
    EmitOne([w, x], y, b3, [bw, bx]);
    Snoc3(w, x, y);
    Snoc3(bw, bx, b3);
    EmitOne([w, x, y], z, bz, [bw, bx, b3]);
    Snoc4(w, x, y, z);
    Snoc4(bw, bx, b3, bz);
  }

  lemma Snoc1<T>(a: T)
    ensures [] + [a] == [a]
  {
  }

  lemma Snoc2<T>(a: T, b: T)
    ensures [a] + [b] == [a, b]
  {
  }

  lemma Snoc3<T>(a: T, b: T, c: T)
    ensures [a, b] + [c] == [a, b, c]
  {
  }

  lemma Snoc4<T>(a: T, b: T, c: T, d: T)
    ensures [a, b, c] + [d] == [a, b, c, d]
  {
  }

  /** One more emitting line after lines that emitted `bs`. */
  lemma EmitOne(lines: seq<string>, line: string, b: Block, bs: seq<Block>)
    requires Run(Start, lines) == Start.(blocks := bs) && Emits(line, b)
    ensures Run(Start, lines + [line]) == Start.(blocks := bs + [b])
  {
    RunSnoc(Start, lines, line);
    StepEmits(Start.(blocks := bs), line, b);
  }

  /** An unterminated fence still yields its body as a code block. */
  lemma ExampleUnclosedFence()
    ensures ScanLines(["```", "line1", "line2"]) == [Code("line1\nline2")]
  {
    assert !IsFence("line1") by {
      assert "line1"[..3][0] == 'l';
    }
    assert !IsFence("line2") by {
      assert "line2"[..3][0] == 'l';
    }
    UnclosedTwoLines("```", "line1", "line2");
    assert "line1" + "\n" + "line2" == "line1\nline2";
  }

  lemma UnclosedTwoLines(open: string, x: string, y: string)
    requires IsFence(open) && !IsFence(x) && !IsFence(y)
    ensures ScanLines([open, x, y]) == [Code(x + "\n" + y)]
  {
    var body := [x, y];
    assert [open, x, y] == [open] + body;
    UnclosedFenceRecovered(Start, open, body);
    assert body[1..] == [y];
  }

  /** Fences do not flush a list, so a list is emitted after the code block it
      surrounds. */
  lemma ExampleListAroundCode()
    ensures ScanLines(["- a", "```", "x", "```", "- b"]) == [Code("x"), List(Unordered, ["a", "b"])]
  {
    assert !IsFence("x");
    ClassifyDashA();
    ClassifyDashB();
    ListAroundCode("- a", "```", "x", "- b");
  }

  lemma ListAroundCode(first: string, fence: string, code: string, second: string)
    requires IsItem(first) && IsItem(second) && ItemKind(first) == Unordered
    requires IsFence(fence) && !IsFence(code)
    ensures ScanLines([first, fence, code, fence, second])
      == [Code(code), List(Unordered, [Classify(first).text, Classify(second).text])]
  {
    var a := Classify(first).text;
    var b := Classify(second).text;
    StepOnItem(Start, first);
    RunSnoc(Start, [], first);
    var s1 := Start.(list := Some(OpenList(Unordered, [a])));
    assert [] + [first] == [first];
    assert Run(Start, [first]) == s1;
    assert NoFence([code]);
    FencedCodeBlock(s1, fence, [code], fence);
    assert Join([code]) == code;
    var s2 := s1.(blocks := [Code(code)]);
    RunAppend(Start, [first], [fence] + [code] + [fence]);
    assert [first] + ([fence] + [code] + [fence]) == [first, fence, code, fence];
    assert Run(Start, [first, fence, code, fence]) == s2;
    StepOnItem(s2, second);
    assert [a] + [b] == [a, b];
    RunSnoc(Start, [first, fence, code, fence], second);
    assert [first, fence, code, fence] + [second] == [first, fence, code, fence, second];
    assert Run(Start, [first, fence, code, fence, second]) == s2.(list := Some(OpenList(Unordered, [a, b])));
  }

  /** The worked inputs again, now as the raw text the renderer receives:
      normalising the text recovers exactly the lines used above. */
  lemma RawMixedMarkersOneList()
    ensures RenderMarkdown("- a\n- b\n1. c\n") == [List(Unordered, ["a", "b", "c"]), Blank]
  {
    FromFourLines("- a", "- b", "1. c", "", "- a\n- b\n1. c\n");
    ExampleMixedMarkersOneList();
  }

  lemma RawHeadingBlankParagraph()
    ensures RenderMarkdown("# Title\n\nSome *not bold* text\n")
      == [Heading(1, "Title"), Blank, Para("Some *not bold* text"), Blank]
  {
    var raw := "# Title\n\nSome *not bold* text\n";
    HeadingExampleText(raw);
    FromFourLines("# Title", "", "Some *not bold* text", "", raw);
    ExampleHeadingBlankParagraph();
  }

  lemma HeadingExampleText(raw: string)
    requires raw == "# Title\n\nSome *not bold* text\n"
    ensures raw == "# Title" + "\n" + "" + "\n" + "Some *not bold* text" + "\n" + ""
  {
    assert raw == "# Title\n\n" + "Some *not bold* text\n";
  }

  lemma RawUnclosedFence()
    ensures RenderMarkdown("```\nline1\nline2") == [Code("line1\nline2")]
  {
    FromThreeLines("```", "line1", "line2", "```\nline1\nline2");
    ExampleUnclosedFence();
  }

  lemma RawListAroundCode()
    ensures RenderMarkdown("- a\n```\nx\n```\n- b") == [Code("x"), List(Unordered, ["a", "b"])]
  {
    FromFiveLines("- a", "```", "x", "```", "- b", "- a\n```\nx\n```\n- b");
    ExampleListAroundCode();
  }

  /** A final line feed inside an unclosed fence adds an empty code line
      rather than a blank block. */
  lemma RawOpenFenceKeepsFinalNewline()
    ensures RenderMarkdown("```\nx\n") == [Code("x\n")]
  {
    var raw := "```\nx\n";
    OpenFenceExampleText(raw);
    FromThreeLines("```", "x", "", raw);
    OpenFenceExampleLines();
  }

  lemma OpenFenceExampleText(raw: string)
    requires raw == "```\nx\n"
    ensures raw == "```" + "\n" + "x" + "\n" + ""
  {
  }

  lemma OpenFenceExampleLines()
    ensures ScanLines(["```", "x", ""]) == [Code("x\n")]
  {
    assert !IsFence("x") && !IsFence("");
    UnclosedTwoLines("```", "x", "");
    assert "x" + "\n" + "" == "x\n";
  }

  /** A text given as the join of its lines renders as those lines. */
  lemma FromLines(lines: seq<string>, raw: string)
    requires |lines| >= 1 && NoNewline(lines)
    requires forall i | 0 <= i < |lines| :: '\r' !in lines[i]
    requires raw == Join(lines)
    ensures RenderMarkdown(raw) == ScanLines(lines)
  {
    NormalizeJoin(lines);
  }

  /** No line feed and no carriage return. */
  predicate Bare(line: string) {
    '\n' !in line && '\r' !in line
  }

  lemma FromThreeLines(a: string, b: string, c: string, raw: string)
    requires Bare(a) && Bare(b) && Bare(c)
    requires raw == a + "\n" + b + "\n" + c
    ensures RenderMarkdown(raw) == ScanLines([a, b, c])
  {
    Join3(a, b, c);
    FromLines([a, b, c], raw);
  }

  lemma FromFourLines(a: string, b: string, c: string, d: string, raw: string)
    requires Bare(a) && Bare(b) && Bare(c) && Bare(d)
    requires raw == a + "\n" + b + "\n" + c + "\n" + d
    ensures RenderMarkdown(raw) == ScanLines([a, b, c, d])
  {
    Join4(a, b, c, d);
    FromLines([a, b, c, d], raw);
  }

  lemma FromFiveLines(a: string, b: string, c: string, d: string, e: string, raw: string)
    requires Bare(a) && Bare(b) && Bare(c) && Bare(d) && Bare(e)
    requires raw == a + "\n" + b + "\n" + c + "\n" + d + "\n" + e
    ensures RenderMarkdown(raw) == ScanLines([a, b, c, d, e])
  {
    Join5(a, b, c, d, e);
    FromLines([a, b, c, d, e], raw);
  }

  lemma Join3(a: string, b: string, c: string)
    ensures Join([a, b, c]) == a + "\n" + b + "\n" + c
  {
    assert [a, b, c][1..] == [b, c];
    assert [b, c][1..] == [c];
    assert Join([c]) == c;
    assert Join([b, c]) == b + "\n" + c;
  }

  lemma Join4(a: string, b: string, c: string, d: string)
    ensures Join([a, b, c, d]) == a + "\n" + b + "\n" + c + "\n" + d
  {
    assert [a, b, c, d][1..] == [b, c, d];
    Join3(b, c, d);
  }

  lemma Join5(a: string, b: string, c: string, d: string, e: string)
    ensures Join([a, b, c, d, e]) == a + "\n" + b + "\n" + c + "\n" + d + "\n" + e
  {
    assert [a, b, c, d, e][1..] == [b, c, d, e];
    Join4(b, c, d, e);
  }
}

=== FILE: inline.dfy ===
/** The inline span renderer `renderInline` / `renderBoldSegments`
    (frontend/src/App.jsx:25-62). A line of text is first cut at the inline
    code spans of `/`([^`]+)`/g`; the text outside them is then cut at the
    bold spans of the expression `\*\*([^*]+)\*\*` (global flag). A global `exec` resumes at `lastIndex`,
    and since neither expression has an anchor or a look-behind, resuming at
    `lastIndex` is the same as searching the rest of the text afresh: both
    functions are modelled as recursion on the remaining suffix. */
module Inline {
  import opened Options
  import opened Chars

  datatype Span = Plain(text: string) | CodeSpan(text: string) | Bold(text: string)

  /** A match of one of the two expressions: the opening delimiter starts at
      `start`, the closing delimiter starts at `close`. */
  datatype Match = Match(start: nat, close: nat)

  predicate NotBacktick(c: char) {
    c != '`'
  }

  predicate NotStar(c: char) {
    c != '*'
  }

  /** The markup a span stands for: code in backticks, bold in double stars. */
  function SpanSource(sp: Span): string {
    match sp
    case Plain(t) => t
    case CodeSpan(t) => "`" + t + "`"
    case Bold(t) => "**" + t + "**"
  }

  /** The text the spans were cut from. */
  function Unparse(spans: seq<Span>): string
    decreases |spans|
  {
    if |spans| == 0 then "" else SpanSource(spans[0]) + Unparse(spans[1..])
  }

  lemma {:induction false} UnparseAppend(a: seq<Span>, b: seq<Span>)
    ensures Unparse(a + b) == Unparse(a) + Unparse(b)
    decreases |a|
  {
    if |a| == 0 {
      assert a + b == b;
    } else {
      assert (a + b)[0] == a[0];
      assert (a + b)[1..] == a[1..] + b;
      UnparseAppend(a[1..], b);
    }
  }

  /** The shape of every span the renderer emits: plain text is never empty,
      code is non-empty and backtick-free, bold is non-empty and star-free. */
  predicate WellFormed(sp: Span) {
    match sp
    case Plain(t) => t != ""
    case CodeSpan(t) => t != "" && '`' !in t
    case Bold(t) => t != "" && '*' !in t
  }

  predicate AllWellFormed(spans: seq<Span>) {
    forall i | 0 <= i < |spans| :: WellFormed(spans[i])
  }

  lemma WellFormedAppend(a: seq<Span>, b: seq<Span>)
    requires AllWellFormed(a) && AllWellFormed(b)
    ensures AllWellFormed(a + b)
  {
    forall i | 0 <= i < |a + b| ensures WellFormed((a + b)[i]) {
      if i >= |a| {
        assert (a + b)[i] == b[i - |a|];
      }
    }
  }

  // ------------------------------------------------------------ code spans

  /** `/`([^`]+)`/` matches at `p` with its closing backtick at `q`. */
  ghost predicate CodeMatchAt(s: string, p: nat, q: nat) {
    && p + 2 <= q < |s|
    && s[p] == '`' && s[q] == '`'
    && All(s[p + 1..q], NotBacktick)
  }

  /** No code span can be matched anywhere in `s`. */
  ghost predicate CodeFree(s: string) {
    forall p: nat, q: nat :: !CodeMatchAt(s, p, q)
  }

  /** The first code-span match starting at or after `i`: the first backtick
      whose next backtick is not adjacent. */
  function FindCodeFrom(s: string, i: nat): (r: Option<Match>)
    requires i <= |s|
    ensures r.Some? ==> i <= r.value.start && r.value.start + 2 <= r.value.close < |s|
    decreases |s| - i
  {
    if i == |s| then None
    else if s[i] == '`' then
      var q := RunEnd(s, i + 1, NotBacktick);
      if q == |s| then None
      else if q == i + 1 then FindCodeFrom(s, i + 1)
      else Some(Match(i, q))
    else FindCodeFrom(s, i + 1)
  }

  /** The search finds exactly the leftmost match at or after `i`. */
  lemma {:induction false} FindCodeFromIsLeftmost(s: string, i: nat)
    requires i <= |s|
    ensures var r := FindCodeFrom(s, i);
      && (r.Some? ==> CodeMatchAt(s, r.value.start, r.value.close))
      && (r.Some? ==> forall p: nat, q: nat | i <= p < r.value.start :: !CodeMatchAt(s, p, q))
      && (r.None? ==> forall p: nat, q: nat | i <= p :: !CodeMatchAt(s, p, q))
    decreases |s| - i
  {
    if i < |s| {
      if s[i] == '`' {
        var q := RunEnd(s, i + 1, NotBacktick);
        RunEndIsRun(s, i + 1, NotBacktick);
        if q == i + 1 {
          FindCodeFromIsLeftmost(s, i + 1);
        }
      } else {
        FindCodeFromIsLeftmost(s, i + 1);
      }
    }
  }

  /** A code-span match is determined by its start: it closes at the next backtick. */
  lemma CodeMatchUnique(s: string, p: nat, q: nat, q': nat)
    requires CodeMatchAt(s, p, q) && CodeMatchAt(s, p, q')
    ensures q == q'
  {
    RunEndExact(s, p + 1, q, NotBacktick);
    RunEndExact(s, p + 1, q', NotBacktick);
  }

  lemma NoBacktickInside(s: string, p: nat, q: nat)
    requires CodeMatchAt(s, p, q)
    ensures '`' !in s[p + 1..q]
  {
    var t := s[p + 1..q];
    forall k | 0 <= k < |t| ensures t[k] != '`' {
      assert NotBacktick(t[k]);
    }
  }

  // ------------------------------------------------------------ bold spans

  // The bold expression `\*\*([^*]+)\*\*` matches at `p` with its closing
  // `**` at `q`.
  ghost predicate BoldMatchAt(s: string, p: nat, q: nat) {
    && p + 3 <= q && q + 1 < |s|
    && s[p] == '*' && s[p + 1] == '*'
    && s[q] == '*' && s[q + 1] == '*'
    && All(s[p + 2..q], NotStar)
  }

  /** No bold span can be matched anywhere in `s`. */
  ghost predicate BoldFree(s: string) {
    forall p: nat, q: nat :: !BoldMatchAt(s, p, q)
  }

  /** The first bold-span match starting at or after `i`: a `**` followed by
      at least one non-star character and then by `**`. */
  function FindBoldFrom(s: string, i: nat): (r: Option<Match>)
    requires i <= |s|
    ensures r.Some? ==> i <= r.value.start && r.value.start + 3 <= r.value.close && r.value.close + 1 < |s|
    decreases |s| - i
  {
    if i == |s| then None
    else if i + 1 < |s| && s[i] == '*' && s[i + 1] == '*' then
      var q := RunEnd(s, i + 2, NotStar);
      if i + 3 <= q && q + 1 < |s| && s[q + 1] == '*' then Some(Match(i, q))
      else FindBoldFrom(s, i + 1)
    else FindBoldFrom(s, i + 1)
  }

  /** The search finds exactly the leftmost match at or after `i`. */
  lemma {:induction false} FindBoldFromIsLeftmost(s: string, i: nat)
    requires i <= |s|
    ensures var r := FindBoldFrom(s, i);
      && (r.Some? ==> BoldMatchAt(s, r.value.start, r.value.close))
      && (r.Some? ==> forall p: nat, q: nat | i <= p < r.value.start :: !BoldMatchAt(s, p, q))
      && (r.None? ==> forall p: nat, q: nat | i <= p :: !BoldMatchAt(s, p, q))
    decreases |s| - i
  {
    if i < |s| {
      FindBoldFromIsLeftmostHere(s, i);
      if !(FindBoldFrom(s, i).Some? && FindBoldFrom(s, i).value.start == i) {
        FindBoldFromIsLeftmost(s, i + 1);
      }
    }
  }

  /** The search's decision at position `i` itself. */
  lemma FindBoldFromIsLeftmostHere(s: string, i: nat)
    requires i < |s|
    ensures var r := FindBoldFrom(s, i);
      if r.Some? && r.value.start == i then BoldMatchAt(s, i, r.value.close)
      else r == FindBoldFrom(s, i + 1) && forall q: nat :: !BoldMatchAt(s, i, q)
  {
    if i + 1 < |s| && s[i] == '*' && s[i + 1] == '*' {
      var q := RunEnd(s, i + 2, NotStar);
      RunEndIsRun(s, i + 2, NotStar);
      forall q': nat | BoldMatchAt(s, i, q') ensures q' == q {
        RunEndExact(s, i + 2, q', NotStar);
      }
    }
  }

  /** A bold match is determined by its start: it closes at the next star. */
  lemma BoldMatchUnique(s: string, p: nat, q: nat, q': nat)
    requires BoldMatchAt(s, p, q) && BoldMatchAt(s, p, q')
    ensures q == q'
  {
    RunEndExact(s, p + 2, q, NotStar);
    RunEndExact(s, p + 2, q', NotStar);
  }

  lemma NoStarInside(s: string, p: nat, q: nat)
    requires BoldMatchAt(s, p, q)
    ensures '*' !in s[p + 2..q]
  {
    var t := s[p + 2..q];
    forall k | 0 <= k < |t| ensures t[k] != '*' {
      assert NotStar(t[k]);
    }
  }

  // ------------------------------------------------------------ renderers

  /** `s` cut as `s[..p]`, an opening delimiter of width `w` at `p`, the inner
      text, a closing delimiter of width `w` at `q`, and the rest. */
  lemma CutAround(s: string, p: nat, q: nat, w: nat)
    requires p + w <= q && q + w <= |s|
    ensures s == s[..p] + s[p..p + w] + s[p + w..q] + s[q..q + w] + s[q + w..]
  {
  }

  /** The spans for the text before a bold match and the match itself. */
  function BoldHead(before: string, inner: string): seq<Span> {
    (if before != "" then [Plain(before)] else []) + [Bold(inner)]
  }

  /** `renderBoldSegments`: the text cut at its bold spans, every piece of
      text before, between and after them kept as a plain span when non-empty. */
  function BoldSegments(t: string): (r: seq<Span>)
    ensures r == [] <==> t == ""
    ensures |r| <= |t|
    decreases |t|
  {
    match FindBoldFrom(t, 0)
    case None => if t != "" then [Plain(t)] else []
    case Some(m) => BoldHead(t[..m.start], t[m.start + 2..m.close]) + BoldSegments(t[m.close + 2..])
  }

  /** Putting the stars back around the bold spans gives the text again, and
      every span has the renderer's shape. */
  lemma {:induction false} BoldSegmentsRoundTrip(t: string)
    ensures Unparse(BoldSegments(t)) == t
    ensures AllWellFormed(BoldSegments(t))
    decreases |t|
  {
    match FindBoldFrom(t, 0)
    case None =>
      if t != "" {
        UnparseSingle(Plain(t));
      }
    case Some(m) =>
      var tail := t[m.close + 2..];
      var rest := BoldSegments(tail);
      BoldSegmentsRoundTrip(tail);
      BoldFound(t, m);
      BoldJoin(t, m.start, m.close, rest);
      assert BoldSegments(t) == BoldHead(t[..m.start], t[m.start + 2..m.close]) + rest;
  }

  /** What the search returns is a match of the bold expression. */
  lemma BoldFound(t: string, m: Match)
    requires FindBoldFrom(t, 0) == Some(m)
    ensures BoldMatchAt(t, m.start, m.close)
  {
    FindBoldFromIsLeftmost(t, 0);
  }

  /** One bold match: the spans before and of the match, followed by spans
      that give back the rest, give back the whole text. */
  lemma BoldJoin(t: string, p: nat, q: nat, rest: seq<Span>)
    requires BoldMatchAt(t, p, q)
    requires Unparse(rest) == t[q + 2..] && AllWellFormed(rest)
    ensures Unparse(BoldHead(t[..p], t[p + 2..q]) + rest) == t
    ensures AllWellFormed(BoldHead(t[..p], t[p + 2..q]) + rest)
  {
    var before := t[..p];
    var inner := t[p + 2..q];
    NoStarInside(t, p, q);
    var head := BoldHead(before, inner);
    assert Unparse(head) == before + "**" + inner + "**" by {
      UnparseBoldHead(before, inner);
    }
    UnparseAppend(head, rest);
    ReassembleBold(t, p, q);
    BoldHeadWellFormed(before, inner);
    WellFormedAppend(head, rest);
  }

  lemma BoldHeadWellFormed(before: string, inner: string)
    requires inner != "" && '*' !in inner
    ensures AllWellFormed(BoldHead(before, inner))
  {
  }

  lemma ReassembleBold(t: string, p: nat, q: nat)
    requires p + 2 <= q && q + 1 < |t|
    requires t[p] == '*' && t[p + 1] == '*' && t[q] == '*' && t[q + 1] == '*'
    ensures t == t[..p] + "**" + t[p + 2..q] + "**" + t[q + 2..]
  {
    CutAround(t, p, q, 2);
    assert t[p..p + 2] == "**" && t[q..q + 2] == "**";
  }

  lemma UnparseSingle(sp: Span)
    ensures Unparse([sp]) == SpanSource(sp)
  {
    assert [sp][1..] == [];
  }

  lemma UnparseBoldHead(before: string, inner: string)
    ensures Unparse(BoldHead(before, inner)) == before + "**" + inner + "**"
  {
    UnparseSingle(Bold(inner));
    if before != "" {
      UnparseSingle(Plain(before));
      UnparseAppend([Plain(before)], [Bold(inner)]);
    } else {
      assert BoldHead(before, inner) == [Bold(inner)];
    }
  }


  /** `if (before) nodes.push(...renderBoldSegments(before))`. */
  function Outside(t: string): (r: seq<Span>)
    ensures r == [] <==> t == ""
    ensures |r| <= |t|
  {
    if t != "" then BoldSegments(t) else []
  }

  lemma OutsideRoundTrip(t: string)
    ensures Unparse(Outside(t)) == t
    ensures AllWellFormed(Outside(t))
  {
    BoldSegmentsRoundTrip(t);
  }

  /** `renderInline`: the text cut at its code spans, the text outside them
      cut at bold spans. */
  function RenderInline(s: string): (r: seq<Span>)
    ensures r == [] <==> s == ""
    ensures |r| <= |s|
    decreases |s|
  {
    match FindCodeFrom(s, 0)
    case None => Outside(s)
    case Some(m) => Outside(s[..m.start]) + [CodeSpan(s[m.start + 1..m.close])] + RenderInline(s[m.close + 1..])
  }

  /** Putting the backticks and stars back gives the text again, and every
      span has the renderer's shape: plain text non-empty, code non-empty and
      backtick-free, bold non-empty and star-free. */
  lemma {:induction false} RenderInlineRoundTrip(s: string)
    ensures Unparse(RenderInline(s)) == s
    ensures AllWellFormed(RenderInline(s))
    decreases |s|
  {
    match FindCodeFrom(s, 0)
    case None =>
      OutsideRoundTrip(s);
    case Some(m) =>
      var tail := s[m.close + 1..];
      var before := Outside(s[..m.start]);
      var rest := RenderInline(tail);
      RenderInlineRoundTrip(tail);
      OutsideRoundTrip(s[..m.start]);
      CodeFound(s, m);
      CodeJoin(s, m.start, m.close, before, rest);
      RenderInlineUnfold(s, m);
  }

  /** One step of `renderInline` at the leftmost code match. */
  lemma RenderInlineUnfold(s: string, m: Match)
    requires FindCodeFrom(s, 0) == Some(m)
    ensures RenderInline(s) == Outside(s[..m.start]) + [CodeSpan(s[m.start + 1..m.close])] + RenderInline(s[m.close + 1..])
  {
  }

  /** What the search returns is a match of the code expression. */
  lemma CodeFound(s: string, m: Match)
    requires FindCodeFrom(s, 0) == Some(m)
    ensures CodeMatchAt(s, m.start, m.close)
  {
    FindCodeFromIsLeftmost(s, 0);
  }

  /** One code match: the spans of the text before it, the code span, and
      spans that give back the rest, give back the whole text. */
  lemma CodeJoin(s: string, p: nat, q: nat, before: seq<Span>, rest: seq<Span>)
    requires CodeMatchAt(s, p, q)
    requires Unparse(before) == s[..p] && AllWellFormed(before)
    requires Unparse(rest) == s[q + 1..] && AllWellFormed(rest)
    ensures Unparse(before + [CodeSpan(s[p + 1..q])] + rest) == s
    ensures AllWellFormed(before + [CodeSpan(s[p + 1..q])] + rest)
  {
    var inner := s[p + 1..q];
    NoBacktickInside(s, p, q);
    UnparseCode(before, inner, rest);
    ReassembleCode(s, p, q);
    assert AllWellFormed([CodeSpan(inner)]);
    WellFormedAppend(before, [CodeSpan(inner)]);
    WellFormedAppend(before + [CodeSpan(inner)], rest);
  }

  lemma UnparseCode(before: seq<Span>, inner: string, rest: seq<Span>)
    ensures Unparse(before + [CodeSpan(inner)] + rest) == Unparse(before) + "`" + inner + "`" + Unparse(rest)
  {
    UnparseSingle(CodeSpan(inner));
    UnparseAppend(before, [CodeSpan(inner)]);
    UnparseAppend(before + [CodeSpan(inner)], rest);
  }

  lemma ReassembleCode(s: string, p: nat, q: nat)
    requires p < q < |s| && s[p] == '`' && s[q] == '`'
    ensures s == s[..p] + "`" + s[p + 1..q] + "`" + s[q + 1..]
  {
    CutAround(s, p, q, 1);
    assert s[p..p + 1] == "`" && s[q..q + 1] == "`";
  }

}

/** Properties of the inline renderer that relate several calls or hold for
    every input: the plain spans are maximal, code spans are opaque to the
    bold pass, and a worked example. */
module InlineFacts {
  import opened Options
  import opened Chars
  import opened Inline

  /** Every plain span is text in which neither expression can match: the
      renderer never leaves a code or bold span unrecognised. */
  ghost predicate PlainSpansFree(spans: seq<Span>) {
    forall k | 0 <= k < |spans| && spans[k].Plain? :: CodeFree(spans[k].text) && BoldFree(spans[k].text)
  }

  ghost predicate PlainSpansBoldFree(spans: seq<Span>) {
    forall k | 0 <= k < |spans| && spans[k].Plain? :: BoldFree(spans[k].text)
  }

  lemma CodeMatchShift(t: string, i: nat, j: nat, a: nat, b: nat)
    requires i <= j <= |t| && CodeMatchAt(t[i..j], a, b)
    ensures CodeMatchAt(t, a + i, b + i)
  {
    assert t[i..j][a] == t[a + i] && t[i..j][b] == t[b + i];
    var inner := t[i..j][a + 1..b];
    var u := t[a + i + 1..b + i];
    forall k | 0 <= k < |u| ensures NotBacktick(u[k]) {
      assert u[k] == inner[k];
    }
  }

  lemma BoldMatchShift(t: string, i: nat, j: nat, a: nat, b: nat)
    requires i <= j <= |t| && BoldMatchAt(t[i..j], a, b)
    ensures BoldMatchAt(t, a + i, b + i)
  {
    assert t[i..j][a] == t[a + i] && t[i..j][a + 1] == t[a + i + 1];
    assert t[i..j][b] == t[b + i] && t[i..j][b + 1] == t[b + i + 1];
    var inner := t[i..j][a + 2..b];
    var u := t[a + i + 2..b + i];
    forall k | 0 <= k < |u| ensures NotStar(u[k]) {
      assert u[k] == inner[k];
    }
  }

  /** A slice of code-free text is code-free. */
  lemma CodeFreeSlice(t: string, i: nat, j: nat)
    requires i <= j <= |t| && CodeFree(t)
    ensures CodeFree(t[i..j])
  {
    forall a: nat, b: nat ensures !CodeMatchAt(t[i..j], a, b) {
      if CodeMatchAt(t[i..j], a, b) {
        CodeMatchShift(t, i, j, a, b);
      }
    }
  }

  /** The text before the leftmost bold match is bold-free. */
  lemma BoldFreeBefore(t: string, p: nat)
    requires p <= |t|
    requires forall a: nat, b: nat | a < p :: !BoldMatchAt(t, a, b)
    ensures BoldFree(t[..p])
  {
    forall a: nat, b: nat ensures !BoldMatchAt(t[..p], a, b) {
      if BoldMatchAt(t[..p], a, b) {
        assert t[..p] == t[0..p];
        BoldMatchShift(t, 0, p, a, b);
      }
    }
  }

  /** The text before the leftmost code match is code-free. */
  lemma CodeFreeBefore(s: string, p: nat)
    requires p <= |s|
    requires forall a: nat, b: nat | a < p :: !CodeMatchAt(s, a, b)
    ensures CodeFree(s[..p])
  {
    forall a: nat, b: nat ensures !CodeMatchAt(s[..p], a, b) {
      if CodeMatchAt(s[..p], a, b) {
        assert s[..p] == s[0..p];
        CodeMatchShift(s, 0, p, a, b);
      }
    }
  }

  /** No plain span of `renderBoldSegments` contains a bold span, and if the
      text has no code span neither does any plain span. */
  lemma {:induction false} BoldSegmentsPlainFree(t: string)
    ensures PlainSpansBoldFree(BoldSegments(t))
    ensures CodeFree(t) ==> PlainSpansFree(BoldSegments(t))
    decreases |t|
  {
    match FindBoldFrom(t, 0)
    case None =>
      BoldSegmentsNoMatch(t);
    case Some(m) =>
      BoldSegmentsPlainFree(t[m.close + 2..]);
      BoldSegmentsMatch(t, m);
  }

  lemma BoldSegmentsNoMatch(t: string)
    requires FindBoldFrom(t, 0).None?
    ensures PlainSpansBoldFree(BoldSegments(t))
    ensures CodeFree(t) ==> PlainSpansFree(BoldSegments(t))
  {
    FindBoldFromIsLeftmost(t, 0);
    assert BoldFree(t);
  }

  lemma BoldSegmentsMatch(t: string, m: Match)
    requires FindBoldFrom(t, 0) == Some(m)
    requires PlainSpansBoldFree(BoldSegments(t[m.close + 2..]))
    requires CodeFree(t[m.close + 2..]) ==> PlainSpansFree(BoldSegments(t[m.close + 2..]))
    ensures PlainSpansBoldFree(BoldSegments(t))
    ensures CodeFree(t) ==> PlainSpansFree(BoldSegments(t))
  {
    var tail := t[m.close + 2..];
    var head := BoldHead(t[..m.start], t[m.start + 2..m.close]);
    BoldSegmentsUnfold(t, m);
    BoldHeadFree(t, m);
    PlainSpansAppend(head, BoldSegments(tail));
    if CodeFree(t) {
      BoldSegmentsMatchCodeFree(t, m);
    }
  }

  lemma BoldSegmentsMatchCodeFree(t: string, m: Match)
    requires FindBoldFrom(t, 0) == Some(m)
    requires CodeFree(t)
    requires CodeFree(t[m.close + 2..]) ==> PlainSpansFree(BoldSegments(t[m.close + 2..]))
    ensures PlainSpansFree(BoldSegments(t))
  {
    TailPlainFree(t, m);
    BoldHeadFree(t, m);
    BoldSegmentsSplitFree(t, m, BoldHead(t[..m.start], t[m.start + 2..m.close]), BoldSegments(t[m.close + 2..]));
  }

  lemma TailPlainFree(t: string, m: Match)
    requires FindBoldFrom(t, 0) == Some(m)
    requires CodeFree(t)
    requires CodeFree(t[m.close + 2..]) ==> PlainSpansFree(BoldSegments(t[m.close + 2..]))
    ensures PlainSpansFree(BoldSegments(t[m.close + 2..]))
  {
    CodeFreeSuffix(t, m.close + 2);
  }

  lemma BoldSegmentsSplitFree(t: string, m: Match, head: seq<Span>, rest: seq<Span>)
    requires FindBoldFrom(t, 0) == Some(m)
    requires head == BoldHead(t[..m.start], t[m.start + 2..m.close])
    requires rest == BoldSegments(t[m.close + 2..])
    requires PlainSpansFree(head) && PlainSpansFree(rest)
    ensures PlainSpansFree(BoldSegments(t))
  {
    BoldSegmentsUnfold(t, m);
    PlainSpansAppend(head, rest);
  }

  lemma BoldSegmentsUnfold(t: string, m: Match)
    requires FindBoldFrom(t, 0) == Some(m)
    ensures BoldSegments(t) == BoldHead(t[..m.start], t[m.start + 2..m.close]) + BoldSegments(t[m.close + 2..])
  {
  }

  lemma CodeFreeSuffix(t: string, i: nat)
    requires i <= |t| && CodeFree(t)
    ensures CodeFree(t[i..])
  {
    CodeFreeSlice(t, i, |t|);
    assert t[i..|t|] == t[i..];
  }

  /** The plain span before the leftmost bold match is free of bold spans,
      and of code spans when the whole text is. */
  lemma BoldHeadFree(t: string, m: Match)
    requires FindBoldFrom(t, 0) == Some(m)
    ensures PlainSpansBoldFree(BoldHead(t[..m.start], t[m.start + 2..m.close]))
    ensures CodeFree(t) ==> PlainSpansFree(BoldHead(t[..m.start], t[m.start + 2..m.close]))
  {
    var before := t[..m.start];
    assert BoldFree(before) by {
      FindBoldFromIsLeftmost(t, 0);
      BoldFreeBefore(t, m.start);
    }
    if CodeFree(t) {
      CodeFreeSlice(t, 0, m.start);
      assert t[0..m.start] == before;
    }
  }

  lemma PlainSpansAppend(a: seq<Span>, b: seq<Span>)
    ensures PlainSpansBoldFree(a) && PlainSpansBoldFree(b) ==> PlainSpansBoldFree(a + b)
    ensures PlainSpansFree(a) && PlainSpansFree(b) ==> PlainSpansFree(a + b)
  {
    forall k | |a| <= k < |a + b| ensures (a + b)[k] == b[k - |a|] {
    }
  }

  /** No plain span of `renderInline` contains a code match or a bold match:
      neither expression left a match behind in the text it passed through. */
  lemma {:induction false} RenderInlinePlainFree(s: string)
    ensures PlainSpansFree(RenderInline(s))
    decreases |s|
  {
    match FindCodeFrom(s, 0)
    case None =>
      FindCodeFromIsLeftmost(s, 0);
      assert CodeFree(s);
      BoldSegmentsPlainFree(s);
    case Some(m) =>
      var rest := s[m.close + 1..];
      RenderInlinePlainFree(rest);
      var prefix := Outside(s[..m.start]) + [CodeSpan(s[m.start + 1..m.close])];
      CodePrefixFree(s, m);
      RenderInlineUnfold(s, m);
      PlainSpansAppend(prefix, RenderInline(rest));
  }

  /** The spans up to and including the leftmost code span have plain spans
      free of both expressions. */
  lemma CodePrefixFree(s: string, m: Match)
    requires FindCodeFrom(s, 0) == Some(m)
    ensures PlainSpansFree(Outside(s[..m.start]) + [CodeSpan(s[m.start + 1..m.close])])
  {
    var before := s[..m.start];
    assert CodeFree(before) by {
      FindCodeFromIsLeftmost(s, 0);
      CodeFreeBefore(s, m.start);
    }
    BoldSegmentsPlainFree(before);
    PlainSpansAppend(Outside(before), [CodeSpan(s[m.start + 1..m.close])]);
  }

  // ------------------------------------------------------------ decompositions

  /** Code spans are found before bold spans: a backtick-delimited span whose
      text has no backtick, preceded by backtick-free text, becomes one code
      span holding its text verbatim, stars and all, and the text after it is
      rendered on its own. */
  lemma CodeSpanOpaque(a: string, c: string, b: string)
    requires '`' !in a && c != "" && '`' !in c
    ensures RenderInline(a + "`" + c + "`" + b) == Outside(a) + [CodeSpan(c)] + RenderInline(b)
  {
    var s := a + "`" + c + "`" + b;
    var p := |a|;
    var q := |a| + |c| + 1;
    assert s[..p] == a && s[p + 1..q] == c && s[q + 1..] == b;
    assert CodeMatchAt(s, p, q) by {
      forall k | 0 <= k < |c| ensures NotBacktick(c[k]) {
        assert c[k] in c;
      }
    }
    FindCodeFromIsLeftmost(s, 0);
    var m := FindCodeFrom(s, 0).value;
    assert m.start == p;
    CodeMatchUnique(s, p, q, m.close);
    RenderInlineUnfold(s, m);
  }

  /** Bold spans are found left to right: a `**`-delimited star-free span
      preceded by star-free text becomes that text as a plain span, then the
      bold span, and the text after it is cut on its own. */
  lemma BoldSpanFirst(a: string, x: string, b: string)
    requires '*' !in a && x != "" && '*' !in x
    ensures BoldSegments(a + "**" + x + "**" + b) == BoldHead(a, x) + BoldSegments(b)
  {
    var t := a + "**" + x + "**" + b;
    var p := |a|;
    var q := |a| + |x| + 2;
    assert t[..p] == a && t[p + 2..q] == x && t[q + 2..] == b;
    assert BoldMatchAt(t, p, q) by {
      forall k | 0 <= k < |x| ensures NotStar(x[k]) {
        assert x[k] in x;
      }
    }
    FindBoldFromIsLeftmost(t, 0);
    var m := FindBoldFrom(t, 0).value;
    assert m.start == p;
    BoldMatchUnique(t, p, q, m.close);
    BoldSegmentsUnfold(t, m);
  }

  /** Text without a star is one plain span (none if empty). */
  lemma StarFreeIsPlain(t: string)
    requires '*' !in t && t != ""
    ensures BoldSegments(t) == [Plain(t)]
  {
    FindBoldFromIsLeftmost(t, 0);
  }

  /** Text without a backtick has no code span: only the bold pass applies. */
  lemma BacktickFreeIsOutside(s: string)
    requires '`' !in s
    ensures RenderInline(s) == Outside(s)
  {
    FindCodeFromIsLeftmost(s, 0);
  }

  /** `Use `foo()` and **bar**` renders as plain "Use ", code "foo()", plain
      " and ", bold "bar". */
  lemma ExampleCodeThenBold(s: string)
    requires s == "Use `foo()` and **bar**"
    ensures RenderInline(s) == [Plain("Use "), CodeSpan("foo()"), Plain(" and "), Bold("bar")]
  {
    ExampleParts(s, "Use ", "foo()", " and ", "bar");
  }

  lemma ExampleParts(s: string, a: string, c: string, b: string, x: string)
    requires s == "Use `foo()` and **bar**"
    requires a == "Use " && c == "foo()" && b == " and " && x == "bar"
    ensures RenderInline(s) == [Plain(a), CodeSpan(c), Plain(b), Bold(x)]
  {
    ExamplePieces(s, a, c, b, x);
    CodeThenBold(a, c, b, x);
  }

  lemma ExamplePieces(s: string, a: string, c: string, b: string, x: string)
    requires s == "Use `foo()` and **bar**"
    requires a == "Use " && c == "foo()" && b == " and " && x == "bar"
    ensures s == a + "`" + c + "`" + (b + "**" + x + "**" + "")
    ensures a != "" && '`' !in a && '*' !in a
    ensures c != "" && '`' !in c
    ensures b != "" && '`' !in b && '*' !in b
    ensures x != "" && '`' !in x && '*' !in x
  {
  }

  lemma CodeThenBold(a: string, c: string, b: string, x: string)
    requires a != "" && '`' !in a && '*' !in a
    requires c != "" && '`' !in c
    requires b != "" && '`' !in b && '*' !in b
    requires x != "" && '`' !in x && '*' !in x
    ensures RenderInline(a + "`" + c + "`" + (b + "**" + x + "**" + ""))
      == [Plain(a), CodeSpan(c), Plain(b), Bold(x)]
  {
    var rest := b + "**" + x + "**" + "";
    assert RenderInline(a + "`" + c + "`" + rest) == Outside(a) + [CodeSpan(c)] + RenderInline(rest) by {
      CodeSpanOpaque(a, c, rest);
    }
    assert Outside(a) == [Plain(a)] by {
      StarFreeIsPlain(a);
    }
    PlainThenBold(b, x);
  }

  lemma PlainThenBold(b: string, x: string)
    requires b != "" && '`' !in b && '*' !in b
    requires x != "" && '`' !in x && '*' !in x
    ensures RenderInline(b + "**" + x + "**" + "") == [Plain(b), Bold(x)]
  {
    var rest := b + "**" + x + "**" + "";
    assert '`' !in rest;
    BacktickFreeIsOutside(rest);
    BoldSpanFirst(b, x, "");
    assert BoldSegments("") == [];
  }
}

=== FILE: lines.dfy ===
/** Line normalisation of the renderer's input: every carriage return is
    deleted, then the text is split on line feeds (frontend/src/App.jsx:65). */
module Lines {

  /** The text with every '\r' removed. */
  function StripCR(s: string): (r: string)
    ensures '\r' !in r
    ensures |r| <= |s|
    ensures '\r' !in s ==> r == s
    decreases |s|
  {
    if |s| == 0 then ""
    else (if s[0] == '\r' then "" else [s[0]]) + StripCR(s[1..])
  }

  /** Exactly the carriage returns are dropped: the text shrinks by their
      number, so none is replaced by another character. */
  lemma {:induction false} StripCRCount(s: string)
    ensures |StripCR(s)| + multiset(s)['\r'] == |s|
    decreases |s|
  {
    if |s| > 0 {
      StripCRCount(s[1..]);
      assert s == [s[0]] + s[1..];
      assert multiset(s) == multiset([s[0]]) + multiset(s[1..]);
    }
  }

  /** Removing carriage returns works piecewise: together with `StripCRCount`
      (a lone '\r' disappears) and the identity on text without one (any other
      character stays), this pins StripCR down as "delete exactly the carriage
      returns, keep the order of the rest". */
  lemma {:induction false} StripCRAppend(a: string, b: string)
    ensures StripCR(a + b) == StripCR(a) + StripCR(b)
    decreases |a|
  {
    if |a| == 0 {
      assert a + b == b;
    } else {
      var head := if a[0] == '\r' then "" else [a[0]];
      assert (a + b)[0] == a[0];
      assert (a + b)[1..] == a[1..] + b;
      StripCRAppend(a[1..], b);
      var x, y := StripCR(a[1..]), StripCR(b);
      assert StripCR(a + b) == head + (x + y);
      assert StripCR(a) == head + x;
      Regroup(StripCR(a + b), StripCR(a), head, x, y);
    }
  }

  /** Concatenation regroups: a text that is `h` followed by `x + y` is the
      text `h + x` followed by `y`. */
  lemma Regroup<T>(u: seq<T>, v: seq<T>, h: seq<T>, x: seq<T>, y: seq<T>)
    requires u == h + (x + y) && v == h + x
    ensures u == v + y
  {
  }

  /** `lines.join('\n')`: the lines separated by single line feeds; no lines give "". */
  function Join(lines: seq<string>): string
    decreases |lines|
  {
    if |lines| == 0 then ""
    else if |lines| == 1 then lines[0]
    else lines[0] + "\n" + Join(lines[1..])
  }

  /** The joined text begins with the first line and holds at least one line
      feed between each two lines. */
  lemma {:induction false} JoinShape(lines: seq<string>)
    ensures |lines| > 0 ==> lines[0] <= Join(lines)
    ensures |Join(lines)| >= |lines| - 1
    decreases |lines|
  {
    if |lines| > 1 {
      JoinShape(lines[1..]);
      assert Join(lines) == lines[0] + ("\n" + Join(lines[1..]));
    }
  }

  /** No line contains a line feed. */
  predicate NoNewline(lines: seq<string>) {
    forall i | 0 <= i < |lines| :: '\n' !in lines[i]
  }

  /** `s.split('\n')`: the maximal line-feed-free pieces between line feeds.
      There is always at least one piece, and joining them back gives `s`. */
  function SplitLines(s: string): (r: seq<string>)
    ensures |r| >= 1
    ensures NoNewline(r)
    ensures Join(r) == s
    decreases |s|
  {
    if |s| == 0 then [""]
    else if s[0] == '\n' then
      var rest := SplitLines(s[1..]);
      NoNewlineCons("", rest);
      NewlineJoin(rest);
      assert s == "\n" + s[1..];
      [""] + rest
    else
      var rest := SplitLines(s[1..]);
      CharCons(s[0], rest);
      assert s == [s[0]] + s[1..];
      [[s[0]] + rest[0]] + rest[1..]
  }

  /** A line without a line feed in front of such lines keeps them free of
      line feeds. */
  lemma NoNewlineCons(x: string, rest: seq<string>)
    requires '\n' !in x && NoNewline(rest)
    ensures NoNewline([x] + rest)
  {
    var r := [x] + rest;
    forall i | 0 <= i < |r| ensures '\n' !in r[i] {
      if i > 0 {
        assert r[i] == rest[i - 1];
      }
    }
  }

  /** A line feed in front of the text starts a new, empty first line. */
  lemma NewlineJoin(rest: seq<string>)
    requires |rest| >= 1
    ensures Join([""] + rest) == "\n" + Join(rest)
  {
    JoinCons("", rest);
    assert "" + "\n" + Join(rest) == "\n" + Join(rest);
  }

  /** Any other character in front of the text joins the first line. */
  lemma CharCons(c: char, rest: seq<string>)
    requires c != '\n' && |rest| >= 1 && NoNewline(rest)
    ensures NoNewline([[c] + rest[0]] + rest[1..])
    ensures Join([[c] + rest[0]] + rest[1..]) == [c] + Join(rest)
  {
    var r := [[c] + rest[0]] + rest[1..];
    forall i | 0 <= i < |r| ensures '\n' !in r[i] {
      if i == 0 {
        assert '\n' !in rest[0];
      } else {
        assert r[i] == rest[i];
      }
    }
    JoinConsHead(c, rest);
  }

  /** Prepending a character to the first line prepends it to the joined text. */
  lemma JoinConsHead(c: char, lines: seq<string>)
    requires |lines| >= 1
    ensures Join([[c] + lines[0]] + lines[1..]) == [c] + Join(lines)
  {
    var tail := lines[1..];
    var x := lines[0];
    if |tail| > 0 {
      JoinCons([c] + x, tail);
      JoinCons(x, tail);
      assert lines == [x] + tail;
      ConsAssoc(c, x, Join(tail));
    } else {
      assert [[c] + x] + tail == [[c] + x];
    }
  }

  lemma ConsAssoc(c: char, x: string, j: string)
    ensures ([c] + x) + "\n" + j == [c] + (x + "\n" + j)
  {
  }

  lemma JoinCons(x: string, tail: seq<string>)
    requires |tail| > 0
    ensures Join([x] + tail) == x + "\n" + Join(tail)
  {
    assert ([x] + tail)[1..] == tail;
  }

  /** Splitting is the inverse of joining for line-feed-free lines: the split
      recovers exactly the lines that were joined. */
  lemma {:induction false} SplitJoin(lines: seq<string>)
    requires |lines| >= 1
    requires NoNewline(lines)
    ensures SplitLines(Join(lines)) == lines
    decreases |lines|, |lines[0]|
  {
    var head := lines[0];
    if |head| == 0 {
      if |lines| > 1 {
        var rest := lines[1..];
        assert NoNewline(rest) by {
          forall i | 0 <= i < |rest| ensures '\n' !in rest[i] {
            assert rest[i] == lines[i + 1];
          }
        }
        SplitJoin(rest);
        var s := Join(lines);
        assert s == "\n" + Join(rest);
        assert s[1..] == Join(rest);
        assert lines == [""] + rest;
      }
    } else {
      var tail := [head[1..]] + lines[1..];
      assert NoNewline(tail) by {
        forall i | 0 <= i < |tail| ensures '\n' !in tail[i] {
          if i == 0 {
            assert '\n' !in head;
            assert forall c | c in head[1..] :: c in head;
          } else {
            assert tail[i] == lines[i];
          }
        }
      }
      SplitJoin(tail);
      assert tail[1..] == lines[1..];
      assert head == [head[0]] + head[1..];
      JoinConsHead(head[0], tail);
      assert [[head[0]] + tail[0]] + tail[1..] == lines;
      var s := Join(lines);
      assert s == [head[0]] + Join(tail);
      assert s[0] == head[0] && head[0] != '\n' by {
        assert head[0] in head;
      }
      assert s[1..] == Join(tail);
    }
  }

  /** A text ending in a line feed splits into the lines of the text without
      that line feed, followed by one empty line. */
  lemma {:induction false} SplitTrailingNewline(s: string)
    requires |s| >= 1 && s[|s| - 1] == '\n'
    ensures SplitLines(s) == SplitLines(s[..|s| - 1]) + [""]
    decreases |s|
  {
    if |s| == 1 {
      assert s[1..] == "";
      assert s[..0] == "";
    } else {
      var t := s[1..];
      assert t[|t| - 1] == '\n';
      SplitTrailingNewline(t);
      var p := s[..|s| - 1];
      assert p[0] == s[0] && p[1..] == t[..|t| - 1];
      SplitStep(s);
      SplitStep(p);
      PushCharSnoc(s[0], SplitLines(p[1..]));
    }
  }

  /** How `split` treats the first character: a line feed starts a new first
      line, any other character is prepended to the first line. */
  function PushChar(c: char, x: seq<string>): seq<string>
    requires |x| >= 1
  {
    if c == '\n' then [""] + x else [[c] + x[0]] + x[1..]
  }

  lemma SplitStep(s: string)
    requires |s| >= 1
    ensures SplitLines(s) == PushChar(s[0], SplitLines(s[1..]))
  {
  }

  lemma PushCharSnoc(c: char, x: seq<string>)
    requires |x| >= 1
    ensures PushChar(c, x + [""]) == PushChar(c, x) + [""]
  {
    SnocShape(x, "");
    if c == '\n' {
      assert ([""] + x) + [""] == [""] + (x + [""]);
    } else {
      assert [[c] + x[0]] + x[1..] + [""] == [[c] + x[0]] + (x[1..] + [""]);
    }
  }

  /** Appending to a non-empty sequence keeps its head and extends its tail. */
  lemma SnocShape<T>(x: seq<T>, e: T)
    requires |x| >= 1
    ensures (x + [e])[0] == x[0] && (x + [e])[1..] == x[1..] + [e]
  {
  }

  /** The renderer's lines: carriage returns deleted, then split on line feeds. */
  function Normalize(raw: string): (lines: seq<string>)
    ensures |lines| >= 1
    ensures NoNewline(lines)
    ensures forall i | 0 <= i < |lines| :: '\r' !in lines[i]
  {
    var lines := SplitLines(StripCR(raw));
    assert forall i | 0 <= i < |lines| :: '\r' !in lines[i] by {
      forall i | 0 <= i < |lines| ensures '\r' !in lines[i] {
        JoinedLineIsInside(lines, i);
      }
    }
    lines
  }

  /** Every character of a line occurs in the joined text. */
  lemma {:induction false} JoinedLineIsInside(lines: seq<string>, i: nat)
    requires i < |lines|
    ensures forall c | c in lines[i] :: c in Join(lines)
    decreases |lines|
  {
    if |lines| > 1 {
      if i > 0 {
        JoinedLineIsInside(lines[1..], i - 1);
        assert lines[1..][i - 1] == lines[i];
        assert Join(lines) == lines[0] + "\n" + Join(lines[1..]);
        forall c | c in lines[i] ensures c in Join(lines) {
          assert c in Join(lines[1..]);
          var k :| 0 <= k < |Join(lines[1..])| && Join(lines[1..])[k] == c;
          assert Join(lines)[|lines[0]| + 1 + k] == c;
        }
      } else {
        forall c | c in lines[0] ensures c in Join(lines) {
          var k :| 0 <= k < |lines[0]| && lines[0][k] == c;
          assert Join(lines)[k] == c;
        }
      }
    }
  }

  /** The empty text is one empty line. */
  lemma NormalizeEmpty()
    ensures Normalize("") == [""]
  {
  }

  /** Windows line ends read as Unix ones: a carriage return before a line
      feed vanishes, so CRLF and LF texts give the same lines. */
  lemma NormalizeCRLF(a: string, b: string)
    ensures Normalize(a + "\r\n" + b) == Normalize(a + "\n" + b)
  {
    assert a + "\r\n" + b == a + ("\r" + "\n" + b);
    assert a + "\n" + b == a + ("\n" + b);
    StripCRAppend(a, "\r" + "\n" + b);
    StripCRAppend(a, "\n" + b);
    StripCRAppend("\r", "\n" + b);
    assert StripCR("\r") == "" by {
      assert "\r"[1..] == "";
    }
    assert StripCR("\r" + "\n" + b) == StripCR("\n" + b);
  }

  /** A text ending in '\n' normalises to the lines of the text before that
      line feed followed by one empty line. */
  lemma NormalizeTrailingNewline(raw: string)
    requires |raw| >= 1 && raw[|raw| - 1] == '\n'
    ensures Normalize(raw) == Normalize(raw[..|raw| - 1]) + [""]
  {
    var p := raw[..|raw| - 1];
    assert raw == p + "\n";
    StripCRAppend(p, "\n");
    assert StripCR("\n") == "\n" by {
      assert "\n"[1..] == "";
    }
    var s := StripCR(raw);
    assert s == StripCR(p) + "\n";
    assert s[..|s| - 1] == StripCR(p);
    SplitTrailingNewline(s);
  }

  /** Lines free of line feeds and carriage returns are recovered from their
      join: the normalisation undoes the join. */
  lemma NormalizeJoin(lines: seq<string>)
    requires |lines| >= 1
    requires NoNewline(lines)
    requires forall i | 0 <= i < |lines| :: '\r' !in lines[i]
    ensures Normalize(Join(lines)) == lines
  {
    StripCRJoin(lines);
    SplitJoin(lines);
  }

  lemma {:induction false} StripCRJoin(lines: seq<string>)
    requires forall i | 0 <= i < |lines| :: '\r' !in lines[i]
    ensures StripCR(Join(lines)) == Join(lines)
    decreases |lines|
  {
    if |lines| > 1 {
      var tail := Join(lines[1..]);
      assert forall i | 0 <= i < |lines[1..]| :: '\r' !in lines[1..][i] by {
        forall i | 0 <= i < |lines[1..]| ensures '\r' !in lines[1..][i] {
          assert lines[1..][i] == lines[i + 1];
        }
      }
      StripCRJoin(lines[1..]);
      assert Join(lines) == lines[0] + ("\n" + tail) by {
        assert lines == [lines[0]] + lines[1..];
        JoinCons(lines[0], lines[1..]);
      }
      StripCRAppend(lines[0], "\n" + tail);
      StripCRAppend("\n", tail);
      assert StripCR("\n") == "\n" by {
        assert "\n"[1..] == "";
      }
      assert '\r' !in lines[0];
    }
  }
}

=== FILE: patterns.dfy ===
/** The per-line tests of the block scanner (frontend/src/App.jsx:83, 100-102, 113):
    the code fence test, the three anchored regular expressions and the
    whitespace-only test. Each regular expression is given twice: as the
    language it accepts (a ghost predicate quantifying over the ways to split
    the line) and as a deterministic greedy matcher, and a lemma shows the two
    agree and that the matcher captures what the greedy regex engine captures. */
module Patterns {
  import opened Options
  import opened Chars

  /** `line.startsWith('```')`. */
  predicate IsFence(line: string): (r: bool)
    ensures r <==> "```" <= line
  {
    |line| >= 3 && line[..3] == "```"
  }

  // ---------------------------------------------------------------- heading

  /** One way `/^(#{1,6})\s+(.*)$/` can match: `k` hashes, whitespace up to `j`,
      and a tail that `.*` can consume up to the end of the line. */
  ghost predicate HeadingShape(line: string, k: nat, j: nat) {
    && 1 <= k <= 6 && k < j <= |line|
    && All(line[..k], IsHash)
    && All(line[k..j], IsWs)
    && NoTerminator(line[j..])
  }

  ghost predicate HeadingRegex(line: string) {
    exists k: nat, j: nat :: HeadingShape(line, k, j)
  }

  datatype HeadingMatch = HeadingMatch(level: nat, text: string)

  /** The match of the heading expression: the level is the number of leading
      hashes, the text is what follows the greedy whitespace run. */
  function MatchHeading(line: string): (r: Option<HeadingMatch>)
    ensures r.Some? ==> 1 <= r.value.level <= 6
    ensures r.Some? ==> r.value.level < |line| - |r.value.text| && IsWs(line[r.value.level])
    ensures r.Some? ==> line[|line| - |r.value.text|..] == r.value.text
  {
    var k := RunEnd(line, 0, IsHash);
    if 1 <= k <= 6 && k < |line| && IsWs(line[k]) then
      var j := RunEnd(line, k, IsWs);
      if TerminatorFreeFrom(line, j) then Some(HeadingMatch(k, line[j..])) else None
    else None
  }

  /** The matcher succeeds exactly on the lines the regular expression accepts;
      its level is the only possible hash count and its text starts where the
      longest possible whitespace run ends, as greedy `\s+` dictates. */
  lemma MatchHeadingIsRegex(line: string)
    ensures MatchHeading(line).Some? <==> HeadingRegex(line)
    ensures MatchHeading(line).Some? ==>
      var m := MatchHeading(line).value;
      var j := |line| - |m.text|;
      && HeadingShape(line, m.level, j)
      && line[j..] == m.text
      && forall k: nat, j': nat :: HeadingShape(line, k, j') ==> k == m.level && j' <= j
  {
    if MatchHeading(line).Some? {
      HeadingMatchHasShape(line);
    }
    forall k: nat, j: nat | HeadingShape(line, k, j)
      ensures MatchHeading(line).Some?
      ensures k == MatchHeading(line).value.level
      ensures j <= |line| - |MatchHeading(line).value.text|
    {
      HeadingShapeForced(line, k, j);
    }
  }

  /** A successful match is one of the ways the expression can match. */
  lemma HeadingMatchHasShape(line: string)
    requires MatchHeading(line).Some?
    ensures var m := MatchHeading(line).value;
      HeadingShape(line, m.level, |line| - |m.text|)
  {
    var k := RunEnd(line, 0, IsHash);
    var j := RunEnd(line, k, IsWs);
    TerminatorFreeFromIsNoTerminator(line, j);
    RunEndIsRun(line, 0, IsHash);
    RunEndIsRun(line, k, IsWs);
    assert HeadingShape(line, k, j);
  }

  /** Any way of matching has the greedy hash count, and the greedy whitespace
      run extends it while leaving a tail `.*` can consume. */
  lemma HeadingShapeForced(line: string, k: nat, j: nat)
    requires HeadingShape(line, k, j)
    ensures MatchHeading(line) == Some(HeadingMatch(k, line[RunEnd(line, k, IsWs)..]))
    ensures j <= RunEnd(line, k, IsWs)
  {
    assert line[k..j][0] == line[k];
    RunEndExact(line, 0, k, IsHash);
    RunEndIsMaximal(line, k, j, IsWs);
    NoTerminatorSuffix(line, j, RunEnd(line, k, IsWs));
    TerminatorFreeFromIsNoTerminator(line, RunEnd(line, k, IsWs));
  }

  // ---------------------------------------------------------------- bullet item

  /** One way `/^\s*[-*]\s+(.*)$/` can match: whitespace up to `i`, the marker at
      `i`, whitespace up to `j`, and a tail `.*` can consume. */
  ghost predicate BulletShape(line: string, i: nat, j: nat) {
    && i + 1 < j <= |line|
    && All(line[..i], IsWs)
    && (line[i] == '-' || line[i] == '*')
    && All(line[i + 1..j], IsWs)
    && NoTerminator(line[j..])
  }

  ghost predicate BulletRegex(line: string) {
    exists i: nat, j: nat :: BulletShape(line, i, j)
  }

  /** The captured item text of the unordered-item expression. */
  function MatchBullet(line: string): (r: Option<string>)
    ensures r.Some? ==> |r.value| + 2 <= |line| && line[|line| - |r.value|..] == r.value
  {
    var i := RunEnd(line, 0, IsWs);
    if i + 1 < |line| && (line[i] == '-' || line[i] == '*') && IsWs(line[i + 1]) then
      var j := RunEnd(line, i + 1, IsWs);
      if TerminatorFreeFrom(line, j) then Some(line[j..]) else None
    else None
  }

  /** The unordered-item matcher succeeds exactly on the accepted lines and
      captures the text after the longest whitespace run following the marker. */
  lemma MatchBulletIsRegex(line: string)
    ensures MatchBullet(line).Some? <==> BulletRegex(line)
    ensures MatchBullet(line).Some? ==>
      var t := MatchBullet(line).value;
      var j := |line| - |t|;
      && (exists i: nat :: BulletShape(line, i, j))
      && line[j..] == t
      && forall i: nat, j': nat :: BulletShape(line, i, j') ==> j' <= j
  {
    if MatchBullet(line).Some? {
      BulletMatchHasShape(line);
    }
    forall i: nat, j: nat | BulletShape(line, i, j)
      ensures MatchBullet(line).Some?
      ensures j <= |line| - |MatchBullet(line).value|
    {
      BulletShapeForced(line, i, j);
    }
  }

  /** A successful match is one of the ways the expression can match. */
  lemma BulletMatchHasShape(line: string)
    requires MatchBullet(line).Some?
    ensures BulletShape(line, RunEnd(line, 0, IsWs), |line| - |MatchBullet(line).value|)
  {
    var i := RunEnd(line, 0, IsWs);
    var j := RunEnd(line, i + 1, IsWs);
    TerminatorFreeFromIsNoTerminator(line, j);
    RunEndIsRun(line, 0, IsWs);
    RunEndIsRun(line, i + 1, IsWs);
    assert BulletShape(line, i, j);
  }

  /** Any way of matching has its marker after the greedy leading whitespace,
      and the greedy whitespace run after the marker extends it. */
  lemma BulletShapeForced(line: string, i: nat, j: nat)
    requires BulletShape(line, i, j)
    ensures MatchBullet(line) == Some(line[RunEnd(line, i + 1, IsWs)..])
    ensures j <= RunEnd(line, i + 1, IsWs)
  {
    assert line[i + 1..j][0] == line[i + 1];
    RunEndExact(line, 0, i, IsWs);
    RunEndIsMaximal(line, i + 1, j, IsWs);
    NoTerminatorSuffix(line, j, RunEnd(line, i + 1, IsWs));
    TerminatorFreeFromIsNoTerminator(line, RunEnd(line, i + 1, IsWs));
  }

  // ---------------------------------------------------------------- ordered item

  /** One way `/^\s*\d+\.\s+(.*)$/` can match: whitespace up to `i`, digits up to
      `d`, the dot at `d`, whitespace up to `j`, and a tail `.*` can consume. */
  ghost predicate OrderedShape(line: string, i: nat, d: nat, j: nat) {
    && i < d && d + 1 < j <= |line|
    && All(line[..i], IsWs)
    && All(line[i..d], IsDigit)
    && line[d] == '.'
    && All(line[d + 1..j], IsWs)
    && NoTerminator(line[j..])
  }

  ghost predicate OrderedRegex(line: string) {
    exists i: nat, d: nat, j: nat :: OrderedShape(line, i, d, j)
  }

  /** The captured item text of the ordered-item expression. */
  function MatchOrdered(line: string): (r: Option<string>)
    ensures r.Some? ==> |r.value| + 3 <= |line| && line[|line| - |r.value|..] == r.value
  {
    var i := RunEnd(line, 0, IsWs);
    var d := RunEnd(line, i, IsDigit);
    if i < d && d + 1 < |line| && line[d] == '.' && IsWs(line[d + 1]) then
      var j := RunEnd(line, d + 1, IsWs);
      if TerminatorFreeFrom(line, j) then Some(line[j..]) else None
    else None
  }

  /** The ordered-item matcher succeeds exactly on the accepted lines and
      captures the text after the longest whitespace run following the dot. */
  lemma MatchOrderedIsRegex(line: string)
    ensures MatchOrdered(line).Some? <==> OrderedRegex(line)
    ensures MatchOrdered(line).Some? ==>
      var t := MatchOrdered(line).value;
      var j := |line| - |t|;
      && (exists i: nat, d: nat :: OrderedShape(line, i, d, j))
      && line[j..] == t
      && forall i: nat, d: nat, j': nat :: OrderedShape(line, i, d, j') ==> j' <= j
  {
    if MatchOrdered(line).Some? {
      OrderedMatchHasShape(line);
    }
    forall i: nat, d: nat, j: nat | OrderedShape(line, i, d, j)
      ensures MatchOrdered(line).Some?
      ensures j <= |line| - |MatchOrdered(line).value|
    {
      OrderedShapeForced(line, i, d, j);
    }
  }

  /** A successful match is one of the ways the expression can match. */
  lemma OrderedMatchHasShape(line: string)
    requires MatchOrdered(line).Some?
    ensures var i := RunEnd(line, 0, IsWs);
      OrderedShape(line, i, RunEnd(line, i, IsDigit), |line| - |MatchOrdered(line).value|)
  {
    var i := RunEnd(line, 0, IsWs);
    var d := RunEnd(line, i, IsDigit);
    var j := RunEnd(line, d + 1, IsWs);
    TerminatorFreeFromIsNoTerminator(line, j);
    RunEndIsRun(line, 0, IsWs);
    RunEndIsRun(line, i, IsDigit);
    RunEndIsRun(line, d + 1, IsWs);
    assert OrderedShape(line, i, d, j);
  }

  /** Any way of matching has its digits after the greedy leading whitespace,
      its dot after the greedy digit run, and the greedy whitespace run after
      the dot extends it. */
  lemma OrderedShapeForced(line: string, i: nat, d: nat, j: nat)
    requires OrderedShape(line, i, d, j)
    ensures MatchOrdered(line) == Some(line[RunEnd(line, d + 1, IsWs)..])
    ensures j <= RunEnd(line, d + 1, IsWs)
  {
    assert line[i..d][0] == line[i];
    RunEndExact(line, 0, i, IsWs);
    RunEndExact(line, i, d, IsDigit);
    assert line[d + 1..j][0] == line[d + 1];
    RunEndIsMaximal(line, d + 1, j, IsWs);
    NoTerminatorSuffix(line, j, RunEnd(line, d + 1, IsWs));
    TerminatorFreeFromIsNoTerminator(line, RunEnd(line, d + 1, IsWs));
  }

  // ---------------------------------------------------------------- classification

  /** What a line outside a code block turns into. */
  datatype LineKind =
    | HeadingLine(level: nat, text: string)
    | BulletItem(text: string)
    | OrderedItem(text: string)
    | BlankLine
    | TextLine

  /** The tests in the scanner's order: heading, unordered item, ordered item,
      whitespace-only line; the first that applies wins and anything else is a
      paragraph line. */
  function Classify(line: string): (k: LineKind)
    ensures k.HeadingLine? ==> 1 <= k.level <= 6
  {
    match MatchHeading(line)
    case Some(h) =>
      assert MatchHeading(line).value.level == RunEnd(line, 0, IsHash);
      HeadingLine(h.level, h.text)
    case None =>
      match MatchBullet(line)
      case Some(t) => BulletItem(t)
      case None =>
        match MatchOrdered(line)
        case Some(t) => OrderedItem(t)
        case None => if RunEnd(line, 0, IsWs) == |line| then BlankLine else TextLine
  }

  /** A line's kind is decided by the regular expressions in the scanner's
      order, and each kind carries the greedy capture of its expression. */
  lemma ClassifyFollowsRegexOrder(line: string)
    ensures Classify(line).HeadingLine? <==> HeadingRegex(line)
    ensures Classify(line).BulletItem? <==> !HeadingRegex(line) && BulletRegex(line)
    ensures Classify(line).OrderedItem? <==>
      !HeadingRegex(line) && !BulletRegex(line) && OrderedRegex(line)
    ensures Classify(line).BlankLine? <==>
      !HeadingRegex(line) && !BulletRegex(line) && !OrderedRegex(line) && All(line, IsWs)
    ensures Classify(line).TextLine? <==>
      !HeadingRegex(line) && !BulletRegex(line) && !OrderedRegex(line) && !All(line, IsWs)
    ensures Classify(line).HeadingLine? ==>
      MatchHeading(line) == Some(HeadingMatch(Classify(line).level, Classify(line).text))
    ensures Classify(line).BulletItem? ==> MatchBullet(line) == Some(Classify(line).text)
    ensures Classify(line).OrderedItem? ==> MatchOrdered(line) == Some(Classify(line).text)
  {
    MatchHeadingIsRegex(line);
    MatchBulletIsRegex(line);
    MatchOrderedIsRegex(line);
    AllWsIsRunToEnd(line);
  }

  /** A fence line never looks like a heading, list item or blank line. */
  lemma FenceIsTextLine(line: string)
    requires IsFence(line)
    ensures Classify(line) == TextLine
  {
    assert line[0] == '`';
    assert !IsWs(line[0]);
    assert RunEnd(line, 0, IsHash) == 0;
    assert RunEnd(line, 0, IsWs) == 0;
    assert RunEnd(line, 0, IsDigit) == 0;
  }
}

=== FILE: scanner.dfy ===
/** The block scanner `renderMarkdown` (frontend/src/App.jsx:64-127): one pass
    over the normalised lines with the state `inCode`, `codeBuf`, `listBuf` and
    `listType`, producing a flat sequence of blocks. It is modelled as a left
    fold of `Step` over the lines followed by `Finish`, and the source's loop is
    modelled by `RenderMarkdownLoop`, proved to compute the same blocks. */
module Scanner {
  import opened Options
  import opened Chars
  import opened Lines
  import opened Patterns

  /** `ul` or `ol`. */
  datatype ListKind = Unordered | Ordered

  datatype Block =
    | Heading(level: nat, text: string)
    | Para(text: string)
    | Blank
    | Code(code: string)
    | List(kind: ListKind, items: seq<string>)

  /** `listBuf` together with `listType`; absent when `listBuf` is null. */
  datatype OpenList = OpenList(kind: ListKind, items: seq<string>)

  datatype ScanState = ScanState(
    blocks: seq<Block>,
    inCode: bool,
    codeBuf: seq<string>,
    list: Option<OpenList>)

  const Start := ScanState([], false, [], None)

  /** The blocks an open list contributes when it is flushed. */
  function Pending(list: Option<OpenList>): seq<Block> {
    match list
    case None => []
    case Some(l) => [List(l.kind, l.items)]
  }

  /** `flushList`. */
  function Flush(st: ScanState): (r: ScanState)
    ensures r.list == None && r.inCode == st.inCode && r.codeBuf == st.codeBuf
    ensures st.blocks <= r.blocks
    ensures |r.blocks| == |st.blocks| + (if st.list.Some? then 1 else 0)
    ensures st.list.Some? ==> r.blocks[|st.blocks|] == List(st.list.value.kind, st.list.value.items)
  {
    st.(blocks := st.blocks + Pending(st.list), list := None)
  }

  /** Append an item, opening a list of `kind` if none is open; an open list
      keeps its kind whatever the item's marker. */
  function AddItem(st: ScanState, kind: ListKind, text: string): ScanState {
    match st.list
    case None => st.(list := Some(OpenList(kind, [text])))
    case Some(l) => st.(list := Some(l.(items := l.items + [text])))
  }

  /** Emit `b` after flushing the open list. */
  function FlushThen(st: ScanState, b: Block): ScanState {
    var f := Flush(st);
    f.(blocks := f.blocks + [b])
  }

  /** Blocks the scanner may emit: lists are never empty and heading levels
      are those the heading expression accepts. */
  predicate ValidBlock(b: Block) {
    && (b.List? ==> |b.items| > 0)
    && (b.Heading? ==> 1 <= b.level <= 6)
  }

  /** The invariant of the scan: emitted blocks are valid, an open list has an
      item, and the code buffer is empty outside a code block. */
  predicate Wf(st: ScanState) {
    && (forall i | 0 <= i < |st.blocks| :: ValidBlock(st.blocks[i]))
    && (st.list.Some? ==> |st.list.value.items| > 0)
    && (!st.inCode ==> st.codeBuf == [])
  }

  /** One iteration of the scanning loop. */
  function Step(st: ScanState, line: string): (r: ScanState)
    ensures st.blocks <= r.blocks
    ensures r.inCode == (st.inCode != IsFence(line))
    ensures IsFence(line) || st.inCode ==> r.list == st.list
  {
    if IsFence(line) then
      if st.inCode then
        st.(blocks := st.blocks + [Code(Join(st.codeBuf))], codeBuf := [], inCode := false)
      else
        st.(inCode := true)
    else if st.inCode then
      st.(codeBuf := st.codeBuf + [line])
    else
      match Classify(line)
      case HeadingLine(level, text) => FlushThen(st, Heading(level, text))
      case BulletItem(text) => AddItem(st, Unordered, text)
      case OrderedItem(text) => AddItem(st, Ordered, text)
      case BlankLine => FlushThen(st, Blank)
      case TextLine => FlushThen(st, Para(line))
  }

  /** One iteration keeps the scan invariant. */
  lemma StepKeepsWf(st: ScanState, line: string)
    requires Wf(st)
    ensures Wf(Step(st, line))
  {
    if IsFence(line) {
      if st.inCode {
        ValidAppend(st.blocks, [Code(Join(st.codeBuf))]);
      }
    } else if !st.inCode && !IsItem(line) {
      StepOutsideCode(st, line);
      ValidAppend(st.blocks, Pending(st.list) + [BlockOf(line)]);
    }
  }

  /** Appending valid blocks to valid blocks gives valid blocks. */
  lemma ValidAppend(a: seq<Block>, b: seq<Block>)
    requires forall i | 0 <= i < |a| :: ValidBlock(a[i])
    requires forall i | 0 <= i < |b| :: ValidBlock(b[i])
    ensures forall i | 0 <= i < |a + b| :: ValidBlock((a + b)[i])
  {
    forall i | |a| <= i < |a + b| ensures (a + b)[i] == b[i - |a|] {
    }
  }

  /** The loop over all lines, from state `st`. */
  function Run(st: ScanState, lines: seq<string>): ScanState
    decreases |lines|
  {
    if |lines| == 0 then st else Run(Step(st, lines[0]), lines[1..])
  }

  /** After the loop: flush the open list, then recover an unclosed code block. */
  function Finish(st: ScanState): (r: seq<Block>)
    ensures st.blocks <= r
    ensures |r| == |st.blocks| + (if st.list.Some? then 1 else 0) + (if st.inCode then 1 else 0)
    ensures st.list.Some? ==> r[|st.blocks|] == List(st.list.value.kind, st.list.value.items)
    ensures st.inCode ==> r[|r| - 1] == Code(Join(st.codeBuf))
  {
    var f := Flush(st);
    if st.inCode then f.blocks + [Code(Join(st.codeBuf))] else f.blocks
  }

  /** The blocks of a sequence of lines. */
  function ScanLines(lines: seq<string>): seq<Block> {
    Finish(Run(Start, lines))
  }

  /** `renderMarkdown` up to the mapping of blocks to nodes. */
  function RenderMarkdown(raw: string): (blocks: seq<Block>)
    ensures |blocks| >= 1
  {
    var lines := Normalize(raw);
    ScanNonEmpty(lines);
    ScanLines(lines)
  }

  /** Every text yields at least one block, every list has an item, and every
      heading level is 1-6. */
  lemma RenderMarkdownBlocks(raw: string)
    ensures |RenderMarkdown(raw)| >= 1
    ensures forall i | 0 <= i < |RenderMarkdown(raw)| :: ValidBlock(RenderMarkdown(raw)[i])
  {
    var lines := Normalize(raw);
    RunKeepsWf(Start, lines);
    ScanNonEmpty(lines);
  }

  // ------------------------------------------------------------ fold algebra

  lemma {:induction false} RunAppend(st: ScanState, a: seq<string>, b: seq<string>)
    ensures Run(st, a + b) == Run(Run(st, a), b)
    decreases |a|
  {
    if |a| > 0 {
      assert (a + b)[0] == a[0];
      assert (a + b)[1..] == a[1..] + b;
      RunAppend(Step(st, a[0]), a[1..], b);
    } else {
      assert a + b == b;
    }
  }

  lemma RunSnoc(st: ScanState, a: seq<string>, line: string)
    ensures Run(st, a + [line]) == Step(Run(st, a), line)
  {
    RunAppend(st, a, [line]);
  }

  // ------------------------------------------------------------ invariants

  /** The scan invariant holds after any number of lines; blocks are only
      ever appended. */
  lemma {:induction false} RunKeepsWf(st: ScanState, lines: seq<string>)
    requires Wf(st)
    ensures Wf(Run(st, lines))
    ensures st.blocks <= Run(st, lines).blocks
    decreases |lines|
  {
    if |lines| > 0 {
      StepKeepsWf(st, lines[0]);
      RunKeepsWf(Step(st, lines[0]), lines[1..]);
    }
  }

  /** The blocks of a non-empty sequence of lines are never empty: the last
      line either emits a block, opens or extends a list, or leaves a code
      block open, and `Finish` emits the latter two. */
  lemma ScanNonEmpty(lines: seq<string>)
    requires |lines| >= 1
    ensures |ScanLines(lines)| >= 1
  {
    var n := |lines| - 1;
    assert lines == lines[..n] + [lines[n]];
    RunSnoc(Start, lines[..n], lines[n]);
    StepLeavesTrace(Run(Start, lines[..n]), lines[n]);
  }

  /** Every line leaves a trace: a block, an open list or an open code block. */
  lemma StepLeavesTrace(st: ScanState, line: string)
    ensures var r := Step(st, line); |r.blocks| >= 1 || r.list.Some? || r.inCode
  {
    if !IsFence(line) && !st.inCode && !IsItem(line) {
      StepOutsideCode(st, line);
    }
  }

  function FenceCount(lines: seq<string>): nat
    decreases |lines|
  {
    if |lines| == 0 then 0 else (if IsFence(lines[0]) then 1 else 0) + FenceCount(lines[1..])
  }

  /** Every fence line toggles code mode, so code mode is open after the lines
      exactly when an odd number of them are fences. */
  lemma {:induction false} FenceParity(st: ScanState, lines: seq<string>)
    ensures Run(st, lines).inCode == (st.inCode != (FenceCount(lines) % 2 == 1))
    decreases |lines|
  {
    if |lines| > 0 {
      FenceParity(Step(st, lines[0]), lines[1..]);
    }
  }

  // ------------------------------------------------------------ code blocks

  predicate NoFence(lines: seq<string>) {
    forall i | 0 <= i < |lines| :: !IsFence(lines[i])
  }

  /** Inside a code block every non-fence line is buffered verbatim, whatever
      it looks like, and nothing else changes. */
  lemma {:induction false} CodeLinesBuffered(st: ScanState, body: seq<string>)
    requires st.inCode
    requires NoFence(body)
    ensures Run(st, body) == st.(codeBuf := st.codeBuf + body)
    decreases |body|
  {
    if |body| > 0 {
      var st' := Step(st, body[0]);
      assert st' == st.(codeBuf := st.codeBuf + [body[0]]);
      assert NoFence(body[1..]) by {
        forall i | 0 <= i < |body[1..]| ensures !IsFence(body[1..][i]) {
          assert body[1..][i] == body[i + 1];
        }
      }
      CodeLinesBuffered(st', body[1..]);
      assert st.codeBuf + [body[0]] + body[1..] == st.codeBuf + body;
    }
  }

  /** A fenced block emits exactly one code block holding its body lines
      joined by line feeds; the fence lines contribute nothing and an open
      list stays open across it. */
  lemma FencedCodeBlock(st: ScanState, open: string, body: seq<string>, close: string)
    requires !st.inCode && st.codeBuf == []
    requires IsFence(open) && IsFence(close) && NoFence(body)
    ensures Run(st, [open] + body + [close]) == st.(blocks := st.blocks + [Code(Join(body))])
  {
    var entered := Step(st, open);
    assert entered == st.(inCode := true);
    assert Run(st, [open]) == entered;
    RunAppend(st, [open], body);
    CodeLinesBuffered(entered, body);
    var full := entered.(codeBuf := body);
    assert Run(st, [open] + body) == full;
    RunSnoc(st, [open] + body, close);
    assert Step(full, close) == st.(blocks := st.blocks + [Code(Join(body))]);
  }

  /** A code block still open at the end of the text is emitted anyway, after
      the flushed list. */
  lemma UnclosedFenceRecovered(st: ScanState, open: string, body: seq<string>)
    requires !st.inCode && st.codeBuf == []
    requires IsFence(open) && NoFence(body)
    ensures Finish(Run(st, [open] + body)) == st.blocks + Pending(st.list) + [Code(Join(body))]
  {
    var entered := Step(st, open);
    assert entered == st.(inCode := true);
    assert Run(st, [open]) == entered;
    RunAppend(st, [open], body);
    CodeLinesBuffered(entered, body);
    assert Run(st, [open] + body) == entered.(codeBuf := body);
  }

  // ------------------------------------------------------------ lists

  predicate IsItem(line: string) {
    Classify(line).BulletItem? || Classify(line).OrderedItem?
  }

  function ItemKind(line: string): ListKind
    requires IsItem(line)
  {
    if Classify(line).BulletItem? then Unordered else Ordered
  }

  /** Every line is a list item. */
  predicate AllItems(lines: seq<string>)
    decreases |lines|
  {
    |lines| == 0 || (IsItem(lines[0]) && AllItems(lines[1..]))
  }

  /** The captured texts of a run of list items. */
  function ItemTexts(lines: seq<string>): seq<string>
    requires AllItems(lines)
    decreases |lines|
  {
    if |lines| == 0 then [] else [Classify(lines[0]).text] + ItemTexts(lines[1..])
  }

  /** A run of list items emits nothing: the items join the open list, or open
      a new one whose kind is that of the first item. Later items join whatever
      their marker, so a list never changes kind. */
  lemma {:induction false} ItemsJoinList(st: ScanState, items: seq<string>)
    requires !st.inCode
    requires |items| >= 1
    requires AllItems(items)
    ensures
      var kind := if st.list.Some? then st.list.value.kind else ItemKind(items[0]);
      var before := if st.list.Some? then st.list.value.items else [];
      Run(st, items) == st.(list := Some(OpenList(kind, before + ItemTexts(items))))
    decreases |items|
  {
    var kind := if st.list.Some? then st.list.value.kind else ItemKind(items[0]);
    var before := if st.list.Some? then st.list.value.items else [];
    var text := Classify(items[0]).text;
    var st' := st.(list := Some(OpenList(kind, before + [text])));
    assert Run(st, items) == Run(st', items[1..]) by {
      FirstItemStep(st, items[0]);
    }
    var rest := items[1..];
    if |rest| > 0 {
      ItemsJoinList(st', rest);
      assert Run(st', rest) == st.(list := Some(OpenList(kind, (before + [text]) + ItemTexts(rest))));
      assert ItemTexts(items) == [text] + ItemTexts(rest);
      AppendAssoc(before, [text], ItemTexts(rest));
    } else {
      assert ItemTexts(items) == [text];
    }
  }

  lemma AppendAssoc(a: seq<string>, b: seq<string>, c: seq<string>)
    ensures (a + b) + c == a + (b + c)
  {
  }

  lemma FirstItemStep(st: ScanState, line: string)
    requires !st.inCode && IsItem(line)
    ensures
      var kind := if st.list.Some? then st.list.value.kind else ItemKind(line);
      var before := if st.list.Some? then st.list.value.items else [];
      Step(st, line) == st.(list := Some(OpenList(kind, before + [Classify(line).text])))
  {
    StepOnItem(st, line);
    assert [] + [Classify(line).text] == [Classify(line).text];
  }

  /** Outside a code block a list item only extends or opens the list. */
  lemma StepOnItem(st: ScanState, line: string)
    requires !st.inCode && IsItem(line)
    ensures Step(st, line) == AddItem(st, ItemKind(line), Classify(line).text)
  {
    FenceIsNotItem(line);
  }

  lemma FenceIsNotItem(line: string)
    ensures IsFence(line) ==> !IsItem(line)
  {
    if IsFence(line) {
      FenceIsTextLine(line);
    }
  }

  /** Outside a code block an open list is flushed by exactly the headings,
      blank lines and paragraph lines; list items and fence lines keep it
      open. When flushed, the list is the first block emitted. */
  lemma ListFlushedOnlyByOtherBlocks(st: ScanState, line: string)
    requires !st.inCode && st.list.Some?
    ensures Step(st, line).list.None? <==> !IsFence(line) && !IsItem(line)
    ensures Step(st, line).list.None? ==>
      |Step(st, line).blocks| == |st.blocks| + 2
      && Step(st, line).blocks[|st.blocks|] == List(st.list.value.kind, st.list.value.items)
  {
  }

  /** The block a line that is neither a fence nor a list item stands for:
      a heading with the hash count as its level and the captured text, a
      blank block for a whitespace-only line, and otherwise a paragraph that
      holds the line verbatim. */
  function BlockOf(line: string): (b: Block)
    requires !IsItem(line)
    ensures ValidBlock(b) && !b.List? && !b.Code?
    ensures b.Para? ==> b.text == line
  {
    match Classify(line)
    case HeadingLine(level, text) => Heading(level, text)
    case BlankLine => Blank
    case TextLine => Para(line)
  }

  /** Outside code, a line that is neither a fence nor an item flushes the
      open list, if any, and then emits its own block; nothing else changes. */
  lemma StepOutsideCode(st: ScanState, line: string)
    requires !st.inCode && !IsFence(line) && !IsItem(line)
    ensures Step(st, line) == st.(blocks := st.blocks + Pending(st.list) + [BlockOf(line)], list := None)
  {
  }

  // ------------------------------------------------------------ whole texts

  /** The empty text renders as one blank block. */
  lemma EmptyTextIsOneBlank()
    ensures RenderMarkdown("") == [Blank]
  {
    NormalizeEmpty();
    assert Classify("") == BlankLine;
  }

  /** A text ending in a line feed, with its fences balanced, ends in a blank
      block: the empty last line is a whitespace-only line. */
  lemma TrailingNewlineGivesBlank(raw: string)
    requires |raw| >= 1 && raw[|raw| - 1] == '\n'
    requires FenceCount(Normalize(raw)) % 2 == 0
    ensures var blocks := RenderMarkdown(raw); |blocks| >= 1 && blocks[|blocks| - 1] == Blank
  {
    NormalizeTrailingNewline(raw);
    RenderMarkdownScans(raw);
    TrailingBlankLines(Normalize(raw), Normalize(raw[..|raw| - 1]));
  }

  /** The blocks of lines made of a prefix and one empty line, with the
      fences balanced, end in a blank block. */
  lemma TrailingBlankLines(lines: seq<string>, prefix: seq<string>)
    requires lines == prefix + [""] && FenceCount(lines) % 2 == 0
    ensures var blocks := ScanLines(lines); |blocks| >= 1 && blocks[|blocks| - 1] == Blank
  {
    BlankAfterEvenFences(prefix);
  }

  /** Lines ending in an empty line, with an even number of fences, end in a
      blank block. */
  lemma BlankAfterEvenFences(prefix: seq<string>)
    requires FenceCount(prefix + [""]) % 2 == 0
    ensures var blocks := ScanLines(prefix + [""]); |blocks| >= 1 && blocks[|blocks| - 1] == Blank
  {
    FenceParity(Start, prefix + [""]);
    EndsInBlankLine(prefix);
  }

  lemma RenderMarkdownScans(raw: string)
    ensures RenderMarkdown(raw) == ScanLines(Normalize(raw))
  {
  }

  /** Lines ending in an empty line, outside a code block at the end, end in
      a blank block. */
  lemma EndsInBlankLine(prefix: seq<string>)
    requires !Run(Start, prefix + [""]).inCode
    ensures var blocks := ScanLines(prefix + [""]); |blocks| >= 1 && blocks[|blocks| - 1] == Blank
  {
    RunSnoc(Start, prefix, "");
    assert Classify("") == BlankLine;
  }
}

=== FILE: scanner_loop.dfy ===
/** The scanning loop of `renderMarkdown` as the source writes it
    (frontend/src/App.jsx:64-127): mutable `blocks`, `inCode`, `codeBuf`,
    `listBuf` and `listType`, the local `flushList`, and `continue` after the
    fence and code-buffer cases. It is proved to compute the blocks of the
    fold `Scanner.RenderMarkdown`. */
module ScannerLoop {
  import opened Options
  import opened Chars
  import opened Lines
  import opened Patterns
  import opened Scanner

  /** The open list that `listBuf` and `listType` describe; `listType` is
      meaningless while `listBuf` is null. */
  function OpenOf(listBuf: Option<seq<string>>, listType: ListKind): Option<OpenList> {
    match listBuf
    case None => None
    case Some(items) => Some(OpenList(listType, items))
  }

  /** `flushList`: push the buffered list, if any, and clear the buffer. */
  method FlushList(blocks: seq<Block>, listBuf: Option<seq<string>>, listType: ListKind)
    returns (blocks': seq<Block>, listBuf': Option<seq<string>>)
    ensures listBuf'.None?
    ensures blocks' == blocks + Pending(OpenOf(listBuf, listType))
  {
    blocks' := blocks;
    if listBuf.Some? {
      blocks' := blocks' + [List(listType, listBuf.value)];
    }
    listBuf' := None;
  }

  /** The loop computes exactly the blocks of the fold over the lines. */
  method RenderMarkdownLoop(raw: string) returns (blocks: seq<Block>)
    ensures blocks == RenderMarkdown(raw)
  {
    var lines := Normalize(raw);
    var inCode, codeBuf, listBuf, listType;
    blocks, inCode, codeBuf, listBuf, listType := ScanAll(lines);
    blocks, listBuf := FlushList(blocks, listBuf, listType);
    if inCode {
      blocks := blocks + [Code(Join(codeBuf))];
    }
  }

  /** The `for` loop over the lines: its variables end as the state of the
      fold over all lines. */
  method ScanAll(lines: seq<string>)
    returns (blocks: seq<Block>, inCode: bool, codeBuf: seq<string>,
             listBuf: Option<seq<string>>, listType: ListKind)
    ensures Run(Start, lines) == ScanState(blocks, inCode, codeBuf, OpenOf(listBuf, listType))
  {
    blocks := [];
    var i := 0;
    inCode := false;
    codeBuf := [];
    listBuf := None;
    listType := Unordered;
    while i < |lines|
      invariant 0 <= i <= |lines|
      invariant Run(Start, lines[..i]) == ScanState(blocks, inCode, codeBuf, OpenOf(listBuf, listType))
    {
      ghost var before := ScanState(blocks, inCode, codeBuf, OpenOf(listBuf, listType));
      blocks, inCode, codeBuf, listBuf, listType := ScanLine(blocks, inCode, codeBuf, listBuf, listType, lines[i]);
      RunOneMore(lines, i, before);
      i := i + 1;
    }
    PrefixWhole(lines);
  }

  lemma RunOneMore(lines: seq<string>, i: nat, st: ScanState)
    requires i < |lines| && Run(Start, lines[..i]) == st
    ensures Run(Start, lines[..i + 1]) == Step(st, lines[i])
  {
    RunSnoc(Start, lines[..i], lines[i]);
    PrefixSnoc(lines, i);
  }

  lemma PrefixSnoc(lines: seq<string>, i: nat)
    requires i < |lines|
    ensures lines[..i + 1] == lines[..i] + [lines[i]]
  {
  }

  lemma PrefixWhole(lines: seq<string>)
    ensures lines[..|lines|] == lines
  {
  }

  /** One pass of the loop body: the fence test, the code buffer, and
      otherwise the classified line. */
  method ScanLine(blocks: seq<Block>, inCode: bool, codeBuf: seq<string>,
                  listBuf: Option<seq<string>>, listType: ListKind, line: string)
    returns (blocks': seq<Block>, inCode': bool, codeBuf': seq<string>,
             listBuf': Option<seq<string>>, listType': ListKind)
    ensures ScanState(blocks', inCode', codeBuf', OpenOf(listBuf', listType'))
      == Step(ScanState(blocks, inCode, codeBuf, OpenOf(listBuf, listType)), line)
  {
    blocks', inCode', codeBuf', listBuf', listType' := blocks, inCode, codeBuf, listBuf, listType;
    if IsFence(line) {
      if inCode {
        blocks' := blocks + [Code(Join(codeBuf))];
        codeBuf' := [];
        inCode' := false;
      } else {
        inCode' := true;
      }
    } else if inCode {
      codeBuf' := codeBuf + [line];
    } else {
      blocks', listBuf', listType' := ScanOutsideCode(blocks, listBuf, listType, line);
    }
  }

  /** A line outside a code block that is not a fence: all three expressions
      are tried, and the first that matches decides. */
  method ScanOutsideCode(blocks: seq<Block>, listBuf: Option<seq<string>>, listType: ListKind, line: string)
    returns (blocks': seq<Block>, listBuf': Option<seq<string>>, listType': ListKind)
    requires !IsFence(line)
    ensures ScanState(blocks', false, [], OpenOf(listBuf', listType'))
      == Step(ScanState(blocks, false, [], OpenOf(listBuf, listType)), line)
  {
    var hMatch := MatchHeading(line);
    var ulMatch := MatchBullet(line);
    var olMatch := MatchOrdered(line);
    listBuf', listType' := listBuf, listType;
    if hMatch.Some? {
      blocks', listBuf' := FlushList(blocks, listBuf, listType);
      blocks' := blocks' + [Heading(hMatch.value.level, hMatch.value.text)];
    } else if ulMatch.Some? {
      blocks' := blocks;
      if listBuf'.None? {
        listBuf' := Some([]);
        listType' := Unordered;
      }
      assert [] + [ulMatch.value] == [ulMatch.value];
      listBuf' := Some(listBuf'.value + [ulMatch.value]);
    } else if olMatch.Some? {
      blocks' := blocks;
      if listBuf'.None? {
        listBuf' := Some([]);
        listType' := Ordered;
      }
      assert [] + [olMatch.value] == [olMatch.value];
      listBuf' := Some(listBuf'.value + [olMatch.value]);
    } else if RunEnd(line, 0, IsWs) == |line| {
      blocks', listBuf' := FlushList(blocks, listBuf, listType);
      blocks' := blocks' + [Blank];
    } else {
      blocks', listBuf' := FlushList(blocks, listBuf, listType);
      blocks' := blocks' + [Para(line)];
    }
  }
}

=== FILE: upload.dfy ===
/** The upload size guard of `handleFileChange` (frontend/src/App.jsx:201-212):
    no file does nothing, a file larger than 2,000,000 bytes is refused with
    an error line and a bot message that both cite the limit in megabytes,
    and any other file goes on to be read and sent for review. */
module Upload {
  import opened Options
  import opened Decimal

  /** `MAX`: the largest accepted size, in bytes. */
  const MaxUploadBytes: nat := 2_000_000

  datatype FileInfo = FileInfo(name: string, size: nat)

  datatype Outcome =
    | NoFile
      /** Refused: the text shown as the error and the bot message posted. */
    | TooLarge(error: string, notice: string)
      /** Passed on to the file reader and then to the review request. */
    | Accepted(file: FileInfo)

  /** `(bytes / 1_000_000).toFixed(1)`: megabytes with one decimal, the
      tenths rounded half up. */
  function MegabyteLabel(bytes: nat): string {
    var tenths := (bytes + 50_000) / 100_000;
    Show(tenths / 10) + "." + Show(tenths % 10)
  }

  /** The error line. The dash between "large" and "max" is stored in the
      source as the three characters U+00E2 U+20AC U+201D (an em dash whose
      UTF-8 bytes were decoded as Windows-1252), and is modelled as written. */
  function TooLargeError(mb: string): (r: string)
    ensures |r| == 23 + |mb| + 3 && OccursAt(mb + " MB", r, 23)
  {
    "File too large " + ['\U{00E2}', '\U{20AC}', '\U{201D}'] + " max " + mb + " MB"
  }

  function TooLargeNotice(name: string, mb: string): (r: string)
    ensures OccursAt(name, r, 5)
    ensures OccursAt(mb + " MB.", r, 5 + |name| + 48) && |r| == 5 + |name| + 48 + |mb| + 4
  {
    "File " + name + " is too large. Please upload files smaller than " + mb + " MB."
  }

  /** `handleFileChange` up to the file reader. */
  function HandleFileChange(file: Option<FileInfo>): (o: Outcome)
    ensures o.NoFile? <==> file.None?
    ensures o.Accepted? <==> file.Some? && file.value.size <= MaxUploadBytes
    ensures o.Accepted? ==> o.file == file.value
  {
    match file
    case None => NoFile
    case Some(f) =>
      if f.size > MaxUploadBytes then
        var mb := MegabyteLabel(MaxUploadBytes);
        TooLarge(TooLargeError(mb), TooLargeNotice(f.name, mb))
      else Accepted(f)
  }

  /** `t` occurs in `s` at position `i`. */
  predicate OccursAt(t: string, s: string, i: nat) {
    i + |t| <= |s| && s[i..i + |t|] == t
  }

  /** The limit is printed as "2.0". */
  lemma MaxLabel()
    ensures MegabyteLabel(MaxUploadBytes) == "2.0"
  {
    assert (MaxUploadBytes + 50_000) / 100_000 == 20;
    assert Show(2) == "2" && Show(0) == "0";
  }

  /** A refused file is told the limit: both texts cite "2.0 MB", and the bot
      message names the file. */
  lemma RefusalCitesLimit(f: FileInfo)
    requires f.size > MaxUploadBytes
    ensures var o := HandleFileChange(Some(f));
      && o.TooLarge?
      && OccursAt("2.0 MB", o.error, 23)
      && OccursAt(f.name, o.notice, 5)
      && OccursAt("2.0 MB", o.notice, 5 + |f.name| + 48)
  {
    MaxLabel();
    var o := HandleFileChange(Some(f));
    var e := TooLargeError("2.0");
    assert o.error == e;
    assert e[23..29] == "2.0 MB";
    var n := TooLargeNotice(f.name, "2.0");
    assert o.notice == n;
    assert n[5..5 + |f.name|] == f.name;
    var k := 5 + |f.name| + 48;
    assert n[k..k + 6] == "2.0 MB";
  }

  /** The guard's boundary: exactly 2,000,000 bytes is accepted, one byte
      more is refused. */
  lemma GuardBoundary(name: string)
    ensures HandleFileChange(Some(FileInfo(name, 2_000_000))).Accepted?
    ensures HandleFileChange(Some(FileInfo(name, 2_000_001))).TooLarge?
  {
  }
}

=== FILE: view.dfy ===
/** Decimal notation of natural numbers, as JavaScript template literals
    print them, with its inverse. */
module Decimal {

  /** The digit character for `d`. */
  function Digit(d: nat): char
    requires d < 10
  {
    ('0' as int + d) as char
  }

  /** `${n}`: the decimal notation of `n`, without leading zeros. */
  function Show(n: nat): (s: string)
    ensures |s| >= 1
    ensures forall i | 0 <= i < |s| :: '0' <= s[i] <= '9'
    decreases n
  {
    if n < 10 then [Digit(n)] else Show(n / 10) + [Digit(n % 10)]
  }

  /** The value of a string of decimal digits. */
  function Value(s: string): nat
    requires forall i | 0 <= i < |s| :: '0' <= s[i] <= '9'
    decreases |s|
  {
    if |s| == 0 then 0
    else Value(s[..|s| - 1]) * 10 + (s[|s| - 1] as int - '0' as int)
  }

  /** Reading the notation back gives the number: `Show` is injective, so
      the notation of a number identifies it. */
  lemma {:induction false} ValueShow(n: nat)
    ensures Value(Show(n)) == n
    decreases n
  {
    var s := Show(n);
    if n < 10 {
      assert s[..0] == [];
    } else {
      ValueShow(n / 10);
      assert s[..|s| - 1] == Show(n / 10);
    }
  }

  lemma ShowInjective(m: nat, n: nat)
    ensures Show(m) == Show(n) ==> m == n
  {
    ValueShow(m);
    ValueShow(n);
  }
}

/** The mapping of blocks to rendered nodes at the end of `renderMarkdown`
    (frontend/src/App.jsx:154-175): headings get the tag `h<min(3, level)>`
    but keep their own level in the class `md-h md-h<level>`, text-bearing
    blocks have their text cut into inline spans, a blank block is a spacer
    and a code block is shown verbatim. React elements, keys and the
    clipboard button are not modelled; a node records its kind and content,
    and only a heading node records a tag and a class. */
module View {
  import opened Decimal
  import opened Scanner
  import opened Inline

  /** What the renderer draws for one block. */
  datatype Node =
    | HeadingNode(tag: string, className: string, content: seq<Span>)
    | ParaNode(content: seq<Span>)
    | Spacer
    | CodeNode(code: string)
    | ListNode(kind: ListKind, items: seq<seq<Span>>)

  /** `Math.min(3, level)`: the heading tag's number. */
  function TagLevel(level: nat): (t: nat)
    ensures t <= 3 && t <= level
    ensures t == 3 || t == level
  {
    if level < 3 then level else 3
  }

  /** `h${Math.min(3, b.level)}`. */
  function HeadingTag(level: nat): (r: string)
    ensures |r| == 2 && r[0] == 'h'
    ensures level >= 1 ==> '1' <= r[1] <= '3'
  {
    "h" + Show(TagLevel(level))
  }

  /** `md-h md-h${b.level}`. */
  function HeadingClass(level: nat): (r: string)
    ensures |r| > 9 && r[..9] == "md-h md-h"
  {
    "md-h md-h" + Show(level)
  }

  /** Each item through `renderInline`, in order. */
  function RenderItems(items: seq<string>): (r: seq<seq<Span>>)
    ensures |r| == |items|
    decreases |items|
  {
    if |items| == 0 then [] else [RenderInline(items[0])] + RenderItems(items[1..])
  }

  /** One block to its node: each kind of block has its own kind of node. */
  function RenderBlock(b: Block): (r: Node)
    ensures r.HeadingNode? <==> b.Heading?
    ensures r.ParaNode? <==> b.Para?
    ensures r.Spacer? <==> b.Blank?
    ensures r.CodeNode? <==> b.Code?
    ensures r.ListNode? <==> b.List?
    ensures b.Heading? ==> r.tag == HeadingTag(b.level) && r.className == HeadingClass(b.level)
    ensures b.Code? ==> r.code == b.code
    ensures b.List? ==> r.kind == b.kind && |r.items| == |b.items|
  {
    match b
    case Heading(level, text) => HeadingNode(HeadingTag(level), HeadingClass(level), RenderInline(text))
    case Para(text) => ParaNode(RenderInline(text))
    case Blank => Spacer
    case Code(code) => CodeNode(code)
    case List(kind, items) => ListNode(kind, RenderItems(items))
  }

  /** `blocks.map(...)`: one node per block, in order. */
  function RenderBlocks(blocks: seq<Block>): (nodes: seq<Node>)
    ensures |nodes| == |blocks|
    decreases |blocks|
  {
    if |blocks| == 0 then [] else [RenderBlock(blocks[0])] + RenderBlocks(blocks[1..])
  }

  /** The text a node shows, with the inline markup put back: the text of
      the block it came from. Lists show their items. */
  function NodeTexts(n: Node): seq<string> {
    match n
    case HeadingNode(_, _, content) => [Unparse(content)]
    case ParaNode(content) => [Unparse(content)]
    case Spacer => []
    case CodeNode(code) => [code]
    case ListNode(_, items) => UnparseAll(items)
  }

  function UnparseAll(items: seq<seq<Span>>): (r: seq<string>)
    ensures |r| == |items|
    decreases |items|
  {
    if |items| == 0 then [] else [Unparse(items[0])] + UnparseAll(items[1..])
  }

  function BlockTexts(b: Block): seq<string> {
    match b
    case Heading(_, text) => [text]
    case Para(text) => [text]
    case Blank => []
    case Code(code) => [code]
    case List(_, items) => items
  }

  /** Rendering loses no text: putting the inline markup back into a node's
      spans gives the block's text, item by item for lists, and the node has
      the same kind as the block. */
  lemma RenderBlockKeepsText(b: Block)
    ensures NodeTexts(RenderBlock(b)) == BlockTexts(b)
    ensures RenderBlock(b).HeadingNode? <==> b.Heading?
    ensures RenderBlock(b).ListNode? <==> b.List?
    ensures RenderBlock(b).CodeNode? <==> b.Code?
  {
    match b
    case Heading(_, text) => RenderInlineRoundTrip(text);
    case Para(text) => RenderInlineRoundTrip(text);
    case List(_, items) => RenderItemsUnparse(items);
    case _ =>
  }

  lemma {:induction false} RenderItemsUnparse(items: seq<string>)
    ensures UnparseAll(RenderItems(items)) == items
    decreases |items|
  {
    if |items| > 0 {
      RenderItemsUnparse(items[1..]);
      RenderInlineRoundTrip(items[0]);
      assert RenderItems(items)[1..] == RenderItems(items[1..]);
    }
  }

  /** The `i`-th node is drawn from the `i`-th block. */
  lemma {:induction false} RenderBlocksPointwise(blocks: seq<Block>, i: nat)
    requires i < |blocks|
    ensures RenderBlocks(blocks)[i] == RenderBlock(blocks[i])
    decreases i
  {
    if i > 0 {
      RenderBlocksPointwise(blocks[1..], i - 1);
    }
  }

  /** The heading clamp: heading levels 1 and 2 keep their tag, levels 3 to 6
      all draw as `h3`, and the class still names the original level, which
      can be read back from it. */
  lemma HeadingClamp(level: nat)
    requires 1 <= level <= 6
    ensures level <= 3 ==> HeadingTag(level) == "h" + Show(level)
    ensures level >= 3 ==> HeadingTag(level) == "h3"
    ensures HeadingClass(level)[..9] == "md-h md-h"
    ensures Value(HeadingClass(level)[9..]) == level
  {
    var c := HeadingClass(level);
    assert c[9..] == Show(level);
    ValueShow(level);
    assert Show(3) == "3";
  }

  /** Two headings share a class only if they share a level, even when their
      tags coincide (levels 3 to 6). */
  lemma HeadingClassDistinguishesLevels(l1: nat, l2: nat)
    ensures HeadingClass(l1) == HeadingClass(l2) ==> l1 == l2
  {
    if HeadingClass(l1) == HeadingClass(l2) {
      assert HeadingClass(l1)[9..] == Show(l1);
      assert HeadingClass(l2)[9..] == Show(l2);
      ShowInjective(l1, l2);
    }
  }

  /** Every heading the renderer draws from a scanned text has tag `h1`,
      `h2` or `h3`, and the class of its level, which is 1-6. */
  lemma RenderedHeadingsClamped(raw: string, i: nat)
    requires i < |RenderMarkdown(raw)| && RenderMarkdown(raw)[i].Heading?
    ensures var n := RenderBlocks(RenderMarkdown(raw))[i];
      && n.HeadingNode?
      && (n.tag == "h1" || n.tag == "h2" || n.tag == "h3")
      && n.className == HeadingClass(RenderMarkdown(raw)[i].level)
      && 1 <= RenderMarkdown(raw)[i].level <= 6
  {
    RenderMarkdownBlocks(raw);
    HeadingNodeClamped(RenderMarkdown(raw), i);
  }

  lemma HeadingNodeClamped(blocks: seq<Block>, i: nat)
    requires i < |blocks| && blocks[i].Heading? && ValidBlock(blocks[i])
    ensures var n := RenderBlocks(blocks)[i];
      && n.HeadingNode?
      && (n.tag == "h1" || n.tag == "h2" || n.tag == "h3")
      && n.className == HeadingClass(blocks[i].level)
      && 1 <= blocks[i].level <= 6
  {
    RenderBlocksPointwise(blocks, i);
    HeadingTagSmall(blocks[i].level);
  }

  /** A level from 1 to 6 draws as `h1`, `h2` or `h3`. */
  lemma HeadingTagSmall(level: nat)
    requires 1 <= level <= 6
    ensures HeadingTag(level) == "h1" || HeadingTag(level) == "h2" || HeadingTag(level) == "h3"
  {
    var t := TagLevel(level);
    assert Show(t) == [Digit(t)];
  }
}
